=== FILE: README.md ===
# cjdnsnode peer relay — a Dafny model

`peer.js` is the gossip relay of a cjdns node-announcement network. Nodes
hold persistent WebSocket connections, greet each other with HELLO/OLLEH,
keep links alive with PING/ACK, advertise the hashes of the announcements
they hold with INV, and fetch the missing ones with GET_DATA/DATA. Under the
WebSocket and timer plumbing sits a deterministic state machine over one
shared context; this project models that machine as pure functions and
proves what it promises.

Every event is a function from a `Context` to a `Step`: the new context, the
messages sent, in order, as `(peer, message)` pairs, and the `onAnnounce`
invocations, in order. The context holds the registry `peers`, the store
`annByHash`, the counters `seqNo` (`ctx.mut.seq`) and `peerIdSeq`, and
`version`. JS peers are objects that socket handlers keep hold of after the
registry has let them go, so peer objects live in a map `objs` from id to
`Peer` (direction, socket state, `timeOfLastMessage`), and the registry is a
sequence of ids. `Registry.Wf` is the invariant every reachable context
keeps: the registry lists created peers, once each, in creation order. Every
step preserves it.

Modules, leaves first:

- `Wrappers`: `Option`.
- `Hex`: `buf.toString('hex')` and `new Buffer(s, 'hex')`, with both round trips.
- `Store`: the announcement store, an insertion-ordered list with distinct
  keys, because `Object.keys` lists a JS object's keys in insertion order.
- `Wire`: decoded inbound fields (`Field`, `Inbound`), outbound messages
  (`Msg`), JS truthiness, and the `toString('hex')`/`map` conversions that
  can throw.
- `Registry`: the context, `dropPeer`, the send guard and `mkPeer`.
- `Protocol`: `handleMessage` and the socket `message` handler that catches
  its throws.
- `Connection`: `incoming`, the `open` and `close` branches of `connectTo`,
  and the chunking of INV into batches of 128.
- `Dissemination`: `addAnn` and `deleteAnn`.
- `Keepalive`: `pingCycle` as written, with the exact set of peers its live
  walk reaches, and a sweep over a copy of the registry that reaches every
  peer (see Findings).
- `Gossip`: two relays end to end.

The clock, the socket state of a new connection and the counter seed are
parameters. A close is a change of socket state: `close()` takes a
connecting or open socket to Closing, and the `close` event finds it Closed.

Two behaviours of the code that are easy to misread:

- The handshake check (peer.js:74) drops a peer when `('HELLO' === type)
  !== peer.outgoing`. So HELLO is accepted only on a peer this node dialed,
  and OLLEH only on one that dialed in. That pairs with what each side sends:
  `incoming` greets with HELLO (peer.js:136), and the `open` branch of
  `connectTo` greets with OLLEH (peer.js:182).
- DATA is ignored only when its payload is falsy (peer.js:110). A Buffer is
  truthy even when empty, so an empty binary payload is still announced.

## Model

| member | source | states |
|---|---|---|
| `Hex.FromHexToHex` | peer.js:100 | decoding the hex form of a buffer gives the buffer back |
| `Hex.ToHexFromHex` | peer.js:104 | a lowercase, even-length hex key survives the trip to bytes and back, so a hash sent in INV is looked up again under the same key |
| `Store.Get` | peer.js:84 | a lookup finds nothing exactly when the key is absent, and otherwise finds the entry stored under that key |
| `Store.Put` | peer.js:187 | after `annByHash[h] = b`, `h` maps to `b`, every other key keeps its value, and a new key is appended to the key order while an existing one keeps its place |
| `Store.Delete` | peer.js:230 | after `delete annByHash[h]`, `h` is absent, every other key keeps its value, the other keys remain in their insertion order with only `h` taken out of it, and deleting an absent key changes nothing |
| `Wire.HexString` | peer.js:83 | `toString('hex')` throws exactly on null, a number or a decoded array. A binary field converts to lowercase hex that decodes back to its bytes; a string passes through unconverted |
| `Wire.HexStrings` | peer.js:100 | mapping `toString('hex')` over an array succeeds exactly when every item converts, and then gives each item's conversion in order |
| `Wire.SentFramesWellFormed` | peer.js:67-69 | every message the relay sends passes the receiver's envelope check |
| `Wire.InvRoundTrip` | peer.js:100 | an INV of well-formed keys is read back by the receiver as the same key list |
| `Registry.Create` | peer.js:212-224 | a new context has no peers, no peer objects and an empty store; its sequence counter starts at the given clock reading, its id counter at 0 and its version is 1; and it satisfies the registry invariant |
| `Registry.IndexOf` | peer.js:49 | `indexOf` gives -1 exactly when the peer is absent, and otherwise its first position |
| `Registry.RemoveFirstIsWithout` | peer.js:49-52 | in a registry without duplicates, splicing out the first occurrence removes the peer and keeps every other peer in order |
| `Registry.DropPeer` | peer.js:33-53 | a drop removes the peer from the registry if present and keeps the others in order; a socket that is Open or Connecting becomes Closing and nothing else about the peer changes, and one already Closing or Closed is not touched; it changes no other peer, the store or the counters |
| `Registry.DropPeerIdempotent` | peer.js:33-53 | dropping a peer a second time changes nothing |
| `Registry.SendPeerMsg` | peer.js:55-56 | a message goes out, once, exactly when the peer's socket is Open |
| `Registry.MkPeer` | peer.js:116-127 | a new peer gets the current id counter value, which then advances; the id is fresh and greater than every registered id, and the peer is not yet registered |
| `Registry.Register` | peer.js:137 | `push` puts the peer at the end of the registry and changes nothing else; pushing a fresh peer whose id is above every registered one keeps the registry invariant |
| `Protocol.Touch` | peer.js:70 | the activity update changes only this peer's `timeOfLastMessage` |
| `Protocol.Missing` | peer.js:101 | the needed hashes are exactly the advertised ones the store lacks, and none are needed when all are known |
| `Protocol.MissingCounts` | peer.js:101 | the filter keeps duplicates: an absent hash advertised n times is needed n times, a known one never |
| `Protocol.MissingAppend` | peer.js:101 | the filter keeps advertised order: filtering a concatenation concatenates the filtered parts |
| `Protocol.RequestAll` | peer.js:103-105 | one GET_DATA per needed hash, in order, with consecutive sequence numbers from the counter; the counter advances by that count even when the socket is not Open and nothing is sent |
| `Protocol.OnMessage` | peer.js:143-149 | a malformed frame drops the peer with its timestamp unchanged; a well-formed one sets the timestamp to now. Any frame leaves the store, the id counter and every other peer alone, sends only to this peer and only when its socket is Open, invokes the callback at most once, and at most removes this peer from the registry |
| `Protocol.HelloDirection` | peer.js:72-81 | HELLO or OLLEH drops the peer exactly when `(type == 'HELLO') != outgoing`, and sends nothing |
| `Protocol.PingReply` | peer.js:89-93 | PING with sequence s yields exactly `[s,'ACK']` when the socket is Open, and changes nothing but the timestamp |
| `Protocol.GetDataReply` | peer.js:82-88 | GET_DATA with sequence s for hash h yields exactly `[s,'DATA', annByHash[h] or null]` when the socket is Open; the store and the sequence counter are unchanged |
| `Protocol.GetDataBadHash` | peer.js:83 | GET_DATA without a convertible hash field throws after the timestamp update, so the peer is dropped with its timestamp refreshed |
| `Protocol.InvFromIncoming` | peer.js:98 | INV from a peer that dialed in does nothing beyond the timestamp update |
| `Protocol.InvFromOutgoing` | peer.js:97-106 | INV from a dialed peer sends one GET_DATA per advertised hash absent from the store, in advertised order, numbered consecutively from the counter, which advances by exactly that count |
| `Protocol.InvBadList` | peer.js:97-100 | an INV from a dialed peer whose fourth field is not a list of convertible hashes throws after the timestamp update, so the peer is dropped with its timestamp refreshed and nothing is sent |
| `Protocol.DispatchFrame` | peer.js:71-113 | every case of the switch either throws with the context it was given, or ends with that context (only its sequence counter possibly advanced) or with this peer dropped; it sends only to this peer and only when its socket is Open, and invokes the callback at most once, for this peer |
| `Protocol.InvAllKnown` | peer.js:101-105 | an INV of only known hashes sends nothing and leaves the counter |
| `Protocol.DataAnnounce` | peer.js:108-112 | DATA invokes `onAnnounce` exactly once with the payload iff the peer is outgoing and the payload is truthy; it sends nothing and leaves the store alone |
| `Connection.Chunks` | peer.js:139-142 | the known hashes are cut into non-empty pieces of at most 128 whose concatenation is the list, ceil(n/128) of them |
| `Connection.InvSends` | peer.js:141 | one INV per chunk, carrying exactly the chunks in order, when the socket is Open, and none otherwise |
| `Connection.Incoming` | peer.js:129-142 | a socket at any path but `/cjdnsnode_websocket` is rejected with no peer made. Otherwise an incoming peer gets the next id and is appended to the registry, HELLO with the version is sent first, and then come ceil(n/128) INVs with at most 128 hashes each whose lists concatenate to the known-key list; the store, the sequence counter and the version are unchanged, and the only new peer object is the new peer's, every other one being unchanged |
| `Connection.ConnectOpen` | peer.js:164-183 | on open, an outgoing peer gets the next id and is appended to the registry, and OLLEH with the version is its only send; the only new peer object is the new peer's, every other one and the version are unchanged |
| `Connection.OnClose` | peer.js:151-153 | a closed socket's peer leaves the registry, the others keep their order, and nothing else changes: its own object differs only in the socket, now Closed; every other object, the store, both counters and the version stay as they were |
| `Dissemination.PushFrom` | peer.js:188-191 | the `forEach` from index k sends `[0,'INV',0,[h]]` to exactly the open incoming peers from k on, in registry order |
| `Dissemination.PushAll` | peer.js:188-191 | over the whole registry, every recipient is a registered open incoming peer, and every such peer is a recipient |
| `Dissemination.AddAnn` | peer.js:186-192 | `addAnn(h,b)` maps h to b and leaves other keys alone. It sends `[0,'INV',0,[h]]` to exactly the open incoming peers, once each, in registry order, and nothing to outgoing peers; the registry, the peers, `seq`, the id counter and the version are unchanged |
| `Dissemination.DeleteAnn` | peer.js:230 | `deleteAnn(h)` removes only h, is a no-op when h is absent, and changes nothing else |
| `Keepalive.Visit` | peer.js:196-203 | lag > 60000 is exactly `dropPeer` (peer.js:33-53), which closes the socket and splices the peer out, and sends nothing; a lag in (20000, 60000] sends exactly one `[seq,'PING']` if the socket is Open and advances `seq`; a lag ≤ 20000 does nothing |
| `Keepalive.VisitStep` | peer.js:196-203 | one visit keeps the invariant, removes no peer within the drop limit, closes the socket of a peer it removes and touches no other object, and sends only a PING of the sweep |
| `Keepalive.ComposeSteps` | peer.js:195 | two stretches of the sweep in a row make a stretch of the sweep, with PING numbers still ascending |
| `Keepalive.PingFromSweeps` | peer.js:195-204 | the live `forEach` from index k keeps the invariant and the clocks, and never removes a peer with lag ≤ 60000. A peer it removes has its socket moved to Closing unless already closing or closed, and every other peer object is unchanged. Its sends are PINGs to registered open peers in the ping band, numbered from the counter in ascending order |
| `Keepalive.PingCycle` | peer.js:194-205 | the sweep as written removes exactly the visited peers with lag > 60000 and keeps every other peer. Each removed peer's socket is closed, and every other peer object is unchanged. It pings exactly the visited open peers in the band, in registry order, numbered upwards from the counter, which advances once per visited peer in the band |
| `Keepalive.SkipRule` | peer.js:195-198 | in the live walk the first registered peer is visited, and a later peer is skipped exactly when the peer just before it was visited and dropped |
| `Keepalive.LiveIsVisited` | peer.js:195-204 | the `forEach` with its length fixed at the start, over the array `dropPeer` splices, does exactly what visiting the visited peers one after another does |
| `Keepalive.NoDropNoSkip` | peer.js:195-204 | when no registered peer has lag > 60000 nothing is skipped, and the sweep as written equals the snapshot sweep |
| `Keepalive.SweepList` | peer.js:195-204 | a sweep over a fixed list of registered peers removes exactly the listed peers past 60000 and closes their sockets, leaving every other peer object unchanged. It pings exactly the listed open peers in the band, in order, with PINGs numbered upwards from the counter, and advances `seq` once per listed peer in the band |
| `Keepalive.PingCycleSnapshot` | peer.js:194-205 | the corrected sweep removes exactly the peers with lag > 60000 and closes their sockets, leaving every other peer object unchanged. It pings exactly the open peers in the band, once each, in registry order, with PINGs numbered upwards from the counter; the counter advances once per peer in the band |
| `Keepalive.SweepSkipsPeerAfterDrop` | peer.js:195-198 | with two peers both silent for more than 60 s, the sweep as written leaves the second registered |
| `Keepalive.SnapshotDropsBoth` | peer.js:195-198 | on the same two peers the corrected sweep leaves none |
| `Gossip.PushReaches` | peer.js:186-192 | `addAnn` on the accepting side sends the INV to the dialer's connection |
| `Gossip.InvRequests` | peer.js:97-106 | the dialer, lacking the hash, answers that INV with one GET_DATA numbered from its counter |
| `Gossip.ServesData` | peer.js:82-88 | the accepting side answers the GET_DATA with the stored payload |
| `Gossip.DeliversData` | peer.js:108-112 | the dialer hands a binary DATA payload to `onAnnounce` |
| `Gossip.Propagation` | peer.js:97-112 | an announcement added on the accepting side reaches the dialer's `onAnnounce` through INV, GET_DATA and DATA |
| `Gossip.MalformedPeerIsolated` | peer.js:143-149 | an undecodable frame drops its peer, while another registered peer keeps its registration and still answers PING |

## Left out

- The `ws` library: `runServer` (peer.js:207-210), event registration, `upgradeReq`. The request path is an argument of `Connection.Incoming`.
- The `terminate()` fallback when `close()` throws (peer.js:38-47): close is a socket-state change that cannot fail.
- Registry.SendPeerMsg: a send on an Open socket always succeeds. The catch that drops the peer when `socket.send` throws (peer.js:57-62) is transport failure and is not modelled.
- Timers: the 5 s `setInterval` of the sweep, the reconnects after 10 s on `error` and after 1 s on `close`, and the `nThen` sequencing of `connectTo`. `Connection.OnClose` models the drop, not the reconnect.
- The `error` branch of `connectTo` (peer.js:160-163): it touches no state except the retry timer.
- msgpack5 encoding and decoding. Inbound frames arrive decoded. A frame that does not decode to an array counts as undecodable. In JS, a decoded map with keys "0" and "1" would be indexed like an array.
- Floating-point numbers: `Wire.Field.Num` carries integers only.
- Wire.HexString: a decoded array in a hash position throws here. JS would turn it into a comma-joined string and look that string up.
- Store.Get: keys inherited from `Object.prototype` are not modelled, and a peer can reach the difference. Hashes arrive from the wire unconverted when they are strings, so an INV carrying the string `"constructor"` finds it already present in JS (`"constructor" in {}` is true, peer.js:101) and requests nothing, while the model requests it and advances `seq`. Likewise a GET_DATA for `"constructor"` or `"__proto__"` answers with a prototype member in JS (peer.js:84) and with null in the model.
- Connection.Incoming: the known keys are listed in insertion order. JS `Object.keys` lists integer-like keys such as "12" first, in ascending order.
- Hex.FromHex: it decodes pairs of hex digits and stops at the first bad pair. Node versions differ on malformed input. The lemmas only use well-formed lowercase keys.
- Keepalive.PingCycle: one `now` serves the whole sweep. The source calls `now()` once per peer, milliseconds apart within one synchronous loop.
- `console.log` diagnostics, and what the `onAnnounce` callback does. Invocations are recorded as `Announce` entries. The HELLO version is only logged, so the model ignores it.

## Findings

| source | as written | input that shows it | evidently intended | confidence | as-written member | corrected member |
|---|---|---|---|---|---|---|
| peer.js:195-198 | `ctx.peers.forEach` walks the live array while `dropPeer` splices it, so the peer after a dropped one slides into the visited index and is skipped this sweep | two registered peers, both silent for more than 60 s | every peer silent for more than 60 s is dropped, and every peer in the ping band pinged, in the same sweep, as iterating a copy of the registry would do | high; not executed | `Keepalive.SweepSkipsPeerAfterDrop` | `Keepalive.PingCycleSnapshot` |

=== FILE: connection.dfy ===
/** Connection set-up and tear-down: the inbound accept path (`incoming`),
    the `open` and `close` branches of `connectTo`, and the batching of the
    known hashes into INV messages. */
module Connection {
  import opened Store
  import opened Wire
  import opened Registry

  const WEBSOCKET_PATH := "/cjdnsnode_websocket"

  /** Most hashes one INV carries. */
  const INV_CHUNK := 128

  function Flatten(chs: seq<seq<Hash>>): seq<Hash> {
    if chs == [] then [] else chs[0] + Flatten(chs[1..])
  }

  /** `while (hashes.length) { h = hashes.splice(0, 128); ... }`: consecutive
      pieces of at most 128 hashes, none empty, that put back together give
      the list again. */
  function Chunks(hs: seq<Hash>): (r: seq<seq<Hash>>)
    ensures Flatten(r) == hs
    ensures |r| == (|hs| + INV_CHUNK - 1) / INV_CHUNK
    ensures forall i :: 0 <= i < |r| ==> 0 < |r[i]| <= INV_CHUNK
    decreases |hs|
  {
    if hs == [] then []
    else
      var n := if |hs| < INV_CHUNK then |hs| else INV_CHUNK;
      var r := [hs[..n]] + Chunks(hs[n..]);
      assert r[1..] == Chunks(hs[n..]);
      assert hs == hs[..n] + hs[n..];
      r
  }

  /** The hash lists of a run of INV sends. */
  function Inventory(out: seq<Send>): seq<seq<Hash>> {
    seq(|out|, i requires 0 <= i < |out| => if out[i].msg.Inv? then out[i].msg.hashes else [])
  }

  /** One guarded `[0, 'INV', 0, chunk]` per chunk; nothing in the loop
      changes the socket, so either every chunk goes out or none does. */
  function InvSends(c: Context, id: PeerId, chunks: seq<seq<Hash>>): (out: seq<Send>)
    ensures Sendable(c, id) ==> Inventory(out) == chunks
    ensures forall i :: 0 <= i < |out| ==> out[i].to == id && out[i].msg.Inv?
    ensures !Sendable(c, id) ==> out == []
    decreases |chunks|
  {
    if chunks == [] then []
    else
      var out := SendPeerMsg(c, id, Inv(chunks[0])) + InvSends(c, id, chunks[1..]);
      assert Sendable(c, id) ==> Inventory(out) == [chunks[0]] + Inventory(InvSends(c, id, chunks[1..]));
      out
  }

  /** What accepting a socket produces. */
  datatype Accept = Rejected | Accepted(id: PeerId, st: Step)

  /** `incoming(ctx, socket)`: a socket upgraded at any other path is closed
      and no peer is made; otherwise an incoming peer is made, greeted with
      `[0, 'HELLO', version]`, registered, and sent the whole inventory in
      INV messages of at most 128 hashes. `socket` is the state of the new
      socket and `now` the clock. */
  function Incoming(c: Context, url: string, socket: SocketState, now: int): (r: Accept)
    ensures r.Rejected? <==> url != WEBSOCKET_PATH
    ensures r.Accepted? ==>
      && r.id == c.peerIdSeq
      && r.st.ctx.peerIdSeq == c.peerIdSeq + 1
      && r.st.ctx.peers == c.peers + [r.id]
      && r.id in r.st.ctx.objs
      && r.st.ctx.objs[r.id] == Peer(false, socket, now)
      && r.st.ctx.objs.Keys == c.objs.Keys + {r.id}
      && (forall x :: x in c.objs && x != r.id ==> r.st.ctx.objs[x] == c.objs[x])
      && r.st.ctx.annByHash == c.annByHash
      && r.st.ctx.seqNo == c.seqNo && r.st.ctx.version == c.version
      && r.st.announced == []
    ensures r.Accepted? && socket != Open ==> r.st.out == []
    ensures r.Accepted? && socket == Open ==>
      && |r.st.out| == 1 + (|Keys(c.annByHash)| + INV_CHUNK - 1) / INV_CHUNK
      && r.st.out[0] == Send(r.id, Hello(c.version))
      && (forall i :: 1 <= i < |r.st.out| ==> r.st.out[i].to == r.id && r.st.out[i].msg.Inv?)
      && (forall i :: 1 <= i < |r.st.out| ==> 0 < |r.st.out[i].msg.hashes| <= INV_CHUNK)
      && Flatten(Inventory(r.st.out[1..])) == Keys(c.annByHash)
    ensures r.Accepted? && Wf(c) ==> Wf(r.st.ctx)
    ensures r.Accepted? && Wf(c) ==> forall i :: 0 <= i < |c.peers| ==> c.peers[i] < r.id
  {
    if url != WEBSOCKET_PATH then Rejected
    else
      var (c1, id) := MkPeer(c, socket, false, now);
      var hello := SendPeerMsg(c1, id, Hello(c1.version));
      var c2 := Register(c1, id);
      var chunks := Chunks(Keys(c2.annByHash));
      var invs := InvSends(c2, id, chunks);
      assert Sendable(c2, id) <==> socket == Open;
      assert Sendable(c2, id) ==> |invs| == |Inventory(invs)| == |chunks|;
      assert Sendable(c2, id) ==> (hello + invs)[1..] == invs;
      assert Sendable(c2, id) ==> forall i :: 0 <= i < |invs| ==> invs[i].msg.hashes == chunks[i] by {
        if Sendable(c2, id) {
          forall i | 0 <= i < |invs| ensures invs[i].msg.hashes == chunks[i] {
            assert Inventory(invs)[i] == chunks[i];
          }
        }
      }
      Accepted(id, Step(c2, hello + invs, []))
  }

  /** The `open` branch of `connectTo`: an outgoing peer is made and
      registered, then greeted with `[0, 'OLLEH', version]`. */
  function ConnectOpen(c: Context, socket: SocketState, now: int): (r: (PeerId, Step))
    ensures r.0 == c.peerIdSeq && r.1.ctx.peerIdSeq == c.peerIdSeq + 1
    ensures r.1.ctx.peers == c.peers + [r.0]
    ensures r.0 in r.1.ctx.objs && r.1.ctx.objs[r.0] == Peer(true, socket, now)
    ensures r.1.ctx.objs.Keys == c.objs.Keys + {r.0}
    ensures forall x :: x in c.objs && x != r.0 ==> r.1.ctx.objs[x] == c.objs[x]
    ensures r.1.ctx.annByHash == c.annByHash && r.1.ctx.seqNo == c.seqNo && r.1.ctx.version == c.version
    ensures r.1.out == (if socket == Open then [Send(r.0, Olleh(c.version))] else [])
    ensures r.1.announced == []
    ensures Wf(c) ==> Wf(r.1.ctx)
  {
    var (c1, id) := MkPeer(c, socket, true, now);
    var c2 := Register(c1, id);
    (id, Step(c2, SendPeerMsg(c2, id, Olleh(c2.version)), []))
  }

  /** The socket `close` handler of both paths: the socket is closed and the
      peer is dropped, which then attempts no close of its own. (The dialing
      path also schedules a reconnect, a timer outside this model.) */
  function OnClose(c: Context, id: PeerId): (r: Context)
    requires id in c.objs
    ensures r.objs.Keys == c.objs.Keys
    ensures r.objs[id] == c.objs[id].(socket := Closed)
    ensures forall x :: x in c.objs && x != id ==> r.objs[x] == c.objs[x]
    ensures Increasing(c.peers) ==> r.peers == Without(c.peers, id)
    ensures r.annByHash == c.annByHash && r.seqNo == c.seqNo && r.peerIdSeq == c.peerIdSeq && r.version == c.version
    ensures Wf(c) ==> Wf(r)
  {
    var c1 := c.(objs := c.objs[id := c.objs[id].(socket := Closed)]);
    DropPeer(c1, id)
  }
}

=== FILE: dissemination.dfy ===
/** The host operations on the store: `addAnn` stores an announcement and
    pushes its hash to the peers that dialed in; `deleteAnn` forgets one and
    tells nobody. */
module Dissemination {
  import opened Wrappers
  import opened Hex
  import opened Store
  import opened Wire
  import opened Registry

  /** A peer `addAnn` pushes to: registered, dialed in, socket open. */
  predicate PushTarget(objs: map<PeerId, Peer>, x: PeerId) {
    x in objs && !objs[x].outgoing && objs[x].socket == Open
  }

  /** Reference definition: the push targets among `s`, in order. */
  function Targets(objs: map<PeerId, Peer>, s: seq<PeerId>): (r: seq<PeerId>)
    ensures forall y :: y in r <==> y in s && PushTarget(objs, y)
    ensures Increasing(s) ==> Increasing(r)
  {
    if s == [] then []
    else
      var tail := Targets(objs, s[1..]);
      if Increasing(s) then
        IncreasingTail(s);
        IncreasingCons(s[0], tail);
        if PushTarget(objs, s[0]) then [s[0]] + tail else tail
      else
        if PushTarget(objs, s[0]) then [s[0]] + tail else tail
  }

  /** The `ctx.peers.forEach` of `addAnn` from index `k` on: skip outgoing
      peers, send `[0, 'INV', 0, [h]]` to the rest through the send guard.
      Sends cannot drop a peer here, so the registry stays as it is. */
  function PushFrom(c: Context, h: Hash, k: nat): (out: seq<Send>)
    ensures forall i :: 0 <= i < |out| ==> out[i].msg == Inv([h])
    ensures k <= |c.peers| ==> Recipients(out) == Targets(c.objs, c.peers[k..])
    decreases |c.peers| - k
  {
    if k >= |c.peers| then []
    else
      var x := c.peers[k];
      var first := if x in c.objs && c.objs[x].outgoing then [] else SendPeerMsg(c, x, Inv([h]));
      var rest := PushFrom(c, h, k + 1);
      RecipientsAppend(first, rest);
      assert c.peers[k..][1..] == c.peers[k + 1..];
      assert Recipients(first) == if PushTarget(c.objs, x) then [x] else [];
      first + rest
  }

  /** The whole `forEach` of `addAnn`, from the first registry entry. */
  lemma PushAll(c: Context, h: Hash)
    ensures var out := PushFrom(c, h, 0);
      && Recipients(out) == Targets(c.objs, c.peers)
      && (forall i :: 0 <= i < |out| ==> out[i].msg == Inv([h]))
      && (forall i :: 0 <= i < |out| ==> out[i].to in c.peers && PushTarget(c.objs, out[i].to))
      && (forall x :: x in c.peers && PushTarget(c.objs, x) ==> x in Recipients(out))
  {
    var out := PushFrom(c, h, 0);
    assert c.peers[0..] == c.peers;
    forall i | 0 <= i < |out| ensures out[i].to in c.peers && PushTarget(c.objs, out[i].to) {
      assert Recipients(out)[i] == out[i].to;
      assert out[i].to in Recipients(out);
    }
  }

  /** `addAnn(hash, binary)`: the store maps `h` to `b` and no other key
      changes; exactly the open incoming peers receive one
      `[0, 'INV', 0, [h]]` each, in registry order; the registry, the peers
      and the sequence counter are untouched. */
  function AddAnn(c: Context, h: Hash, b: Bytes): (r: Step)
    ensures Get(r.ctx.annByHash, h) == Some(b)
    ensures forall k :: k != h ==> Get(r.ctx.annByHash, k) == Get(c.annByHash, k)
    ensures r.ctx.peers == c.peers && r.ctx.objs == c.objs
    ensures r.ctx.seqNo == c.seqNo && r.ctx.peerIdSeq == c.peerIdSeq && r.ctx.version == c.version
    ensures forall i :: 0 <= i < |r.out| ==> r.out[i].msg == Inv([h])
    ensures forall i :: 0 <= i < |r.out| ==> r.out[i].to in c.peers && PushTarget(c.objs, r.out[i].to)
    ensures forall x :: x in c.peers && PushTarget(c.objs, x) ==> x in Recipients(r.out)
    ensures Recipients(r.out) == Targets(c.objs, c.peers)
    ensures r.announced == []
    ensures Wf(c) ==> Wf(r.ctx)
  {
    var c1 := c.(annByHash := Put(c.annByHash, h, b));
    PushAll(c1, h);
    Step(c1, PushFrom(c1, h, 0), [])
  }

  /** `deleteAnn(hash)`: only `h` is forgotten, a missing `h` changes
      nothing, and nothing is sent. */
  function DeleteAnn(c: Context, h: Hash): (r: Context)
    ensures Get(r.annByHash, h).None?
    ensures forall k :: k != h ==> Get(r.annByHash, k) == Get(c.annByHash, k)
    ensures !Has(c.annByHash, h) ==> r == c
    ensures r.(annByHash := c.annByHash) == c
  {
    c.(annByHash := Delete(c.annByHash, h))
  }
}

=== FILE: gossip.dfy ===
/** Two relays talking: properties of the protocol as a whole rather than of
    one handler. */
module Gossip {
  import opened Wrappers
  import opened Hex
  import opened Store
  import opened Wire
  import opened Registry
  import opened Protocol
  import opened Dissemination

  /** Hop 1: `addAnn` on B pushes the hash to A's connection. */
  lemma PushReaches(b: Context, pa: PeerId, h: Hash, p: Bytes)
    requires pa in b.peers && pa in b.objs && !b.objs[pa].outgoing && b.objs[pa].socket == Open
    ensures Send(pa, Inv([h])) in AddAnn(b, h, p).out
  {
    var b1 := AddAnn(b, h, p);
    assert pa in Recipients(b1.out);
    var i :| 0 <= i < |b1.out| && Recipients(b1.out)[i] == pa;
    assert b1.out[i] == Send(pa, Inv([h]));
  }

  /** Hop 2: A, lacking the hash, requests it with its next sequence number. */
  lemma InvRequests(a: Context, pb: PeerId, t: int, h: Hash)
    requires pb in a.objs && a.objs[pb].outgoing && a.objs[pb].socket == Open
    requires IsLowerHex(h) && !Has(a.annByHash, h)
    ensures var r := OnMessage(a, pb, t, Decoded(Fields(Inv([h]))));
      && r.out == [Send(pb, GetData(a.seqNo, h))]
      && pb in r.ctx.objs && r.ctx.objs[pb].outgoing
  {
    var m := Decoded(Fields(Inv([h])));
    InvRoundTrip([h]);
    assert Missing(a.annByHash, [h]) == [h];
    InvFromOutgoing(a, pb, t, m, 0, [h]);
    assert Requests(pb, a.seqNo, [h]) == [Send(pb, GetData(a.seqNo, h))];
  }

  /** Hop 3: B answers the request with the stored payload. */
  lemma ServesData(b: Context, pa: PeerId, t: int, sn: int, h: Hash, p: Bytes)
    requires pa in b.objs && b.objs[pa].socket == Open
    requires IsLowerHex(h) && Get(b.annByHash, h) == Some(p)
    ensures OnMessage(b, pa, t, Decoded(Fields(GetData(sn, h)))).out == [Send(pa, Data(sn, Some(p)))]
  {
    ToHexFromHex(h);
    GetDataReply(b, pa, t, Decoded(Fields(GetData(sn, h))), sn, h);
  }

  /** Hop 4: A hands the payload to its callback. */
  lemma DeliversData(a: Context, pb: PeerId, t: int, sn: int, p: Bytes)
    requires pb in a.objs && a.objs[pb].outgoing
    ensures OnMessage(a, pb, t, Decoded(Fields(Data(sn, Some(p))))).announced == [Announce(pb, Bin(p))]
  {
    DataAnnounce(a, pb, t, Decoded(Fields(Data(sn, Some(p)))), sn);
  }

  /** An announcement added on the accepting side reaches the dialing side's
      `onAnnounce`: B pushes an INV to A, A requests the one hash it lacks,
      B answers with the payload, and A hands it to its callback. `pb` is
      A's peer for B (dialed by A) and `pa` is B's peer for A. */
  lemma Propagation(a: Context, b: Context, pb: PeerId, pa: PeerId,
                    h: Hash, p: Bytes, t1: int, t2: int, t3: int)
    requires Wf(a) && Wf(b)
    requires pb in a.peers && a.objs[pb].outgoing && a.objs[pb].socket == Open
    requires pa in b.peers && !b.objs[pa].outgoing && b.objs[pa].socket == Open
    requires IsLowerHex(h) && !Has(a.annByHash, h)
    ensures var b1 := AddAnn(b, h, p);
      && Send(pa, Inv([h])) in b1.out
      && var a1 := OnMessage(a, pb, t1, Decoded(Fields(Inv([h]))));
      && a1.out == [Send(pb, GetData(a.seqNo, h))]
      && var b2 := OnMessage(b1.ctx, pa, t2, Decoded(Fields(GetData(a.seqNo, h))));
      && b2.out == [Send(pa, Data(a.seqNo, Some(p)))]
      && var a2 := OnMessage(a1.ctx, pb, t3, Decoded(Fields(Data(a.seqNo, Some(p)))));
      && a2.announced == [Announce(pb, Bin(p))]
  {
    PushReaches(b, pa, h, p);
    InvRequests(a, pb, t1, h);
    var b1 := AddAnn(b, h, p);
    ServesData(b1.ctx, pa, t2, a.seqNo, h, p);
    var a1 := OnMessage(a, pb, t1, Decoded(Fields(Inv([h]))));
    DeliversData(a1.ctx, pb, t3, a.seqNo, p);
  }

  /** A peer that sends an undecodable frame is dropped, while another
      registered peer keeps its registration and its object and still
      answers PING. */
  lemma MalformedPeerIsolated(c: Context, x: PeerId, y: PeerId, now: int, t: int, s: int)
    requires Wf(c) && x in c.peers && y in c.peers && x != y
    requires c.objs[y].socket == Open
    ensures var r := OnMessage(c, x, now, Undecodable);
      && x !in r.ctx.peers && y in r.ctx.peers && r.ctx.objs[y] == c.objs[y]
      && OnMessage(r.ctx, y, t, Decoded([Num(s), Str("PING")])).out == [Send(y, Ack(s))]
  {
    var r := OnMessage(c, x, now, Undecodable);
    PingReply(r.ctx, y, t, Decoded([Num(s), Str("PING")]), s);
  }
}

=== FILE: hex.dfy ===
/** Conversion between raw hash bytes and the lowercase hex strings that key
    the announcement store (Node's `buf.toString('hex')` and
    `new Buffer(s, 'hex')`). */
module Hex {
  import opened Wrappers

  type Byte = b: int | 0 <= b < 256
  type Bytes = seq<Byte>

  /** The lowercase hex digit for a nibble. */
  function Digit(v: nat): (c: char)
    requires v < 16
  {
    if v < 10 then ('0' as int + v) as char else ('a' as int + v - 10) as char
  }

  /** The value of a hex digit of either case; None for any other character. */
  function DigitValue(c: char): (r: Option<nat>)
    ensures r.Some? ==> r.value < 16
  {
    if '0' <= c <= '9' then Some(c as int - '0' as int)
    else if 'a' <= c <= 'f' then Some(c as int - 'a' as int + 10)
    else if 'A' <= c <= 'F' then Some(c as int - 'A' as int + 10)
    else None
  }

  predicate IsLowerDigit(c: char) {
    '0' <= c <= '9' || 'a' <= c <= 'f'
  }

  /** A well-formed store key: lowercase hex, two digits per byte. */
  predicate IsLowerHex(s: string) {
    |s| % 2 == 0 && forall i :: 0 <= i < |s| ==> IsLowerDigit(s[i])
  }

  /** `buf.toString('hex')`: two lowercase digits per byte, high nibble first. */
  function ToHex(bs: Bytes): (s: string)
    ensures |s| == 2 * |bs|
    ensures IsLowerHex(s)
  {
    if bs == [] then []
    else [Digit(bs[0] / 16), Digit(bs[0] % 16)] + ToHex(bs[1..])
  }

  /** `new Buffer(s, 'hex')`: decodes digit pairs from the left and stops at
      the first pair that is not two hex digits; an odd last digit is dropped. */
  function FromHex(s: string): (bs: Bytes)
    ensures |bs| <= |s| / 2
    decreases |s|
  {
    if |s| < 2 then []
    else match (DigitValue(s[0]), DigitValue(s[1]))
      case (Some(hi), Some(lo)) => [hi * 16 + lo] + FromHex(s[2..])
      case _ => []
  }

  /** Hex-encoding a buffer and decoding it again gives the buffer back. */
  lemma {:induction false} FromHexToHex(bs: Bytes)
    ensures FromHex(ToHex(bs)) == bs
  {
    if bs != [] {
      var s := ToHex(bs);
      var b := bs[0];
      assert s[2..] == ToHex(bs[1..]);
      assert DigitValue(s[0]) == Some(b / 16);
      assert DigitValue(s[1]) == Some(b % 16);
      FromHexToHex(bs[1..]);
    }
  }

  /** A well-formed key survives the trip to bytes and back, which is what
      lets a hash sent in an INV be looked up again when it returns in a
      GET_DATA. */
  lemma {:induction false} ToHexFromHex(s: string)
    requires IsLowerHex(s)
    ensures ToHex(FromHex(s)) == s
  {
    if |s| >= 2 {
      assert IsLowerDigit(s[0]) && IsLowerDigit(s[1]);
      var hi := DigitValue(s[0]).value;
      var lo := DigitValue(s[1]).value;
      assert Digit(hi) == s[0];
      assert Digit(lo) == s[1];
      var b: Byte := hi * 16 + lo;
      assert b / 16 == hi && b % 16 == lo;
      assert IsLowerHex(s[2..]) by {
        forall i | 0 <= i < |s[2..]| ensures IsLowerDigit(s[2..][i]) {
          assert s[2..][i] == s[i + 2];
        }
      }
      ToHexFromHex(s[2..]);
      assert FromHex(s) == [b] + FromHex(s[2..]);
      assert s == [s[0], s[1]] + s[2..];
    }
  }
}

=== FILE: keepalive.dfy ===
/** The keepalive sweep `pingCycle`, run every 5 s: a peer silent for more
    than 60 s is dropped, one silent for more than 20 s is pinged.

    The sweep walks the live `ctx.peers` with `forEach` while `dropPeer`
    splices it. `forEach` fixes the length when it starts and visits index
    k only if it still exists, so after a removal the next peer slides into
    the index just visited and is skipped. `PingCycle` models that walk as
    written and `Visited` names the peers it reaches. `PingCycleSnapshot`
    is the same sweep over a copy of the registry, which visits every peer
    once whatever `dropPeer` splices out. */
module Keepalive {
  import opened Store
  import opened Wire
  import opened Registry

  const DROP_AFTER_MS := 60000
  const PING_AFTER_MS := 20000

  /** `now() - p.mut.timeOfLastMessage`. */
  function Lag(c: Context, x: PeerId, now: int): int
    requires x in c.objs
  {
    now - c.objs[x].timeOfLastMessage
  }

  /** Only the activity timestamps matter to the sweep's decisions, and the
      sweep never changes them, nor which peer objects exist. */
  predicate SameClocks(c: Context, d: Context) {
    && d.objs.Keys == c.objs.Keys
    && (forall x :: x in c.objs ==> d.objs[x].timeOfLastMessage == c.objs[x].timeOfLastMessage)
    && d.annByHash == c.annByHash && d.peerIdSeq == c.peerIdSeq && d.version == c.version
  }

  /** The `forEach` callback for one peer: past the drop limit the peer is
      dropped; in the ping band it gets one `[seq, 'PING']` if its socket is
      open and the counter advances either way; otherwise nothing happens. */
  function Visit(c: Context, x: PeerId, now: int): (r: Step)
    requires x in c.objs
    ensures r.announced == []
    ensures r.ctx.objs.Keys == c.objs.Keys
    ensures Lag(c, x, now) > DROP_AFTER_MS ==>
      r.out == [] && r.ctx.seqNo == c.seqNo && (Increasing(c.peers) ==> x !in r.ctx.peers)
    ensures Lag(c, x, now) > DROP_AFTER_MS ==> r == Step(DropPeer(c, x), [], [])
    ensures PING_AFTER_MS < Lag(c, x, now) <= DROP_AFTER_MS ==>
      && r.ctx == c.(seqNo := c.seqNo + 1)
      && r.out == (if c.objs[x].socket == Open then [Send(x, Ping(c.seqNo))] else [])
    ensures Lag(c, x, now) <= PING_AFTER_MS ==> r.ctx == c && r.out == []
  {
    var lag := Lag(c, x, now);
    if lag > DROP_AFTER_MS then Step(DropPeer(c, x), [], [])
    else if lag > PING_AFTER_MS then Step(c.(seqNo := c.seqNo + 1), SendPeerMsg(c, x, Ping(c.seqNo)), [])
    else Step(c, [], [])
  }

  /** A PING the sweep may send: to a registered peer whose socket was open
      and whose lag was in the ping band, numbered in `[lo, hi)`. */
  predicate SweepPing(c: Context, now: int, s: Send, lo: int, hi: int) {
    && s.to in c.peers && s.to in c.objs
    && c.objs[s.to].socket == Open
    && PING_AFTER_MS < Lag(c, s.to, now) <= DROP_AFTER_MS
    && s.msg.Ping? && lo <= s.msg.sequence < hi
  }

  /** PINGs numbered in send order, each number used once. */
  predicate Ascending(out: seq<Send>) {
    forall i, j :: 0 <= i < j < |out| ==>
      out[i].msg.Ping? && out[j].msg.Ping? && out[i].msg.sequence < out[j].msg.sequence
  }

  /** What any stretch of the sweep does, taking `c` to `d` while sending
    `out`: the invariant and the clocks are kept; peers only leave the
    registry, never one whose lag is within the drop limit, and those that
    stay keep their objects; a peer that leaves has its socket closed, and
    the objects of peers that were not registered are untouched; every send
    is a PING of the sweep, numbered from the counter in ascending order. */
  predicate SweepStep(c: Context, d: Context, out: seq<Send>, now: int)
    requires Wf(c)
  {
    && Wf(d) && SameClocks(c, d) && d.seqNo >= c.seqNo
    && (forall x :: x in d.peers ==> x in c.peers)
    && (forall x :: x in c.peers && Lag(c, x, now) <= DROP_AFTER_MS ==> x in d.peers)
    && (forall x :: x in d.peers ==> d.objs[x] == c.objs[x])
    && (forall x :: x in c.objs ==>
         d.objs[x] == (if x in c.peers && x !in d.peers then CloseSocket(c.objs[x]) else c.objs[x]))
    && (forall i :: 0 <= i < |out| ==> SweepPing(c, now, out[i], c.seqNo, d.seqNo))
    && Ascending(out)
  }

  lemma VisitStep(c: Context, x: PeerId, now: int)
    requires Wf(c) && x in c.peers
    ensures var v := Visit(c, x, now); SweepStep(c, v.ctx, v.out, now) && v.announced == []
  {
    var v := Visit(c, x, now);
    RemoveFirstIsWithout(c.peers, x);
  }

  /** Two stretches of the sweep in a row are a stretch of the sweep. */
  lemma ComposeSteps(c: Context, v: Context, d: Context, o1: seq<Send>, o2: seq<Send>, now: int)
    requires Wf(c) && Wf(v)
    requires SweepStep(c, v, o1, now) && SweepStep(v, d, o2, now)
    ensures SweepStep(c, d, o1 + o2, now)
  {
    var o := o1 + o2;
    forall i | 0 <= i < |o| ensures SweepPing(c, now, o[i], c.seqNo, d.seqNo) {
      if i < |o1| {
        assert o[i] == o1[i];
        assert SweepPing(c, now, o1[i], c.seqNo, v.seqNo);
      } else {
        assert o[i] == o2[i - |o1|];
        assert SweepPing(v, now, o2[i - |o1|], v.seqNo, d.seqNo);
      }
    }
    forall i, j | 0 <= i < j < |o|
      ensures o[i].msg.Ping? && o[j].msg.Ping? && o[i].msg.sequence < o[j].msg.sequence
    {
      if j < |o1| {
        assert o[i] == o1[i] && o[j] == o1[j];
      } else if i >= |o1| {
        assert o[i] == o2[i - |o1|] && o[j] == o2[j - |o1|];
      } else {
        assert o[i] == o1[i] && o[j] == o2[j - |o1|];
        assert SweepPing(c, now, o1[i], c.seqNo, v.seqNo);
        assert SweepPing(v, now, o2[j - |o1|], v.seqNo, d.seqNo);
      }
    }
  }

  /** The `forEach` from index `k` up to the length `n` it started with,
      over the registry as it stands after the earlier visits. */
  function PingFrom(c: Context, now: int, k: nat, n: nat): (r: Step)
    requires Wf(c)
    ensures r.announced == []
    decreases n - k
  {
    if k >= n then Step(c, [], [])
    else if k >= |c.peers| then PingFrom(c, now, k + 1, n)
    else
      var x := c.peers[k];
      var v := Visit(c, x, now);
      VisitWf(c, x, now);
      var rest := PingFrom(v.ctx, now, k + 1, n);
      Step(rest.ctx, v.out + rest.out, [])
  }

  /** A visit keeps the invariant. */
  lemma VisitWf(c: Context, x: PeerId, now: int)
    requires Wf(c) && x in c.objs
    ensures Wf(Visit(c, x, now).ctx)
  {
  }

  /** The loop invariant of the live `forEach`: every stretch of it is a
      stretch of the sweep. */
  lemma {:induction false} PingFromSweeps(c: Context, now: int, k: nat, n: nat)
    requires Wf(c)
    ensures var r := PingFrom(c, now, k, n); SweepStep(c, r.ctx, r.out, now)
    decreases n - k
  {
    if k >= n {
    } else if k >= |c.peers| {
      PingFromSweeps(c, now, k + 1, n);
    } else {
      var x := c.peers[k];
      var v := Visit(c, x, now);
      VisitStep(c, x, now);
      PingFromSweeps(v.ctx, now, k + 1, n);
      var rest := PingFrom(v.ctx, now, k + 1, n);
      ComposeSteps(c, v.ctx, rest.ctx, v.out, rest.out, now);
    }
  }

  /** `pingCycle(ctx)`, as written: a sweep over the peers it actually
      visits (see `Visited`), so a visited peer past the drop limit leaves,
      a visited open peer in the ping band gets one PING, and a skipped peer
      is left alone. */
  function PingCycle(c: Context, now: int): (r: Step)
    requires Wf(c)
    ensures SweepStep(c, r.ctx, r.out, now)
    ensures r.announced == []
    ensures forall x :: x in r.ctx.peers <==>
      x in c.peers && !(x in Visited(c, now, c.peers) && Lag(c, x, now) > DROP_AFTER_MS)
    ensures forall x :: x in c.objs ==>
      r.ctx.objs[x] == (if x in Visited(c, now, c.peers) && Lag(c, x, now) > DROP_AFTER_MS then CloseSocket(c.objs[x]) else c.objs[x])
    ensures Recipients(r.out) == PingTargets(c, now, Visited(c, now, c.peers))
    ensures r.ctx.seqNo == c.seqNo + |InBand(c, now, Visited(c, now, c.peers))|
  {
    LiveIsVisited(c, now, 0, |c.peers|);
    assert c.peers[0..] == c.peers;
    WalkIsSweep(c, now, Visited(c, now, c.peers));
    PingFromSweeps(c, now, 0, |c.peers|);
    PingFrom(c, now, 0, |c.peers|)
  }

  /** The peers of `s` whose lag is in the ping band. */
  function InBand(c: Context, now: int, s: seq<PeerId>): (r: seq<PeerId>)
    requires forall i :: 0 <= i < |s| ==> s[i] in c.objs
    ensures |r| <= |s|
    ensures forall y :: y in r <==> y in s && PING_AFTER_MS < Lag(c, y, now) <= DROP_AFTER_MS
  {
    if s == [] then []
    else (if PING_AFTER_MS < Lag(c, s[0], now) <= DROP_AFTER_MS then [s[0]] else []) + InBand(c, now, s[1..])
  }

  /** The peers of `s` a correct sweep pings: in the ping band, socket open. */
  function PingTargets(c: Context, now: int, s: seq<PeerId>): (r: seq<PeerId>)
    requires forall i :: 0 <= i < |s| ==> s[i] in c.objs
    ensures forall y :: y in r <==> y in s && PING_AFTER_MS < Lag(c, y, now) <= DROP_AFTER_MS && c.objs[y].socket == Open
  {
    if s == [] then []
    else
      var x := s[0];
      (if PING_AFTER_MS < Lag(c, x, now) <= DROP_AFTER_MS && c.objs[x].socket == Open then [x] else [])
        + PingTargets(c, now, s[1..])
  }

  /** Both filters look only at the objects of the peers they filter. */
  lemma {:induction false} FiltersAgree(c: Context, d: Context, now: int, s: seq<PeerId>)
    requires forall i :: 0 <= i < |s| ==> s[i] in c.objs && s[i] in d.objs && d.objs[s[i]] == c.objs[s[i]]
    ensures InBand(c, now, s) == InBand(d, now, s)
    ensures PingTargets(c, now, s) == PingTargets(d, now, s)
  {
    if s != [] {
      FiltersAgree(c, d, now, s[1..]);
    }
  }

  /** What the snapshot sweep over `s` does, taking `c` to `d` with sends
      `out`. */
  ghost predicate SnapshotSpec(c: Context, d: Context, out: seq<Send>, now: int, s: seq<PeerId>)
    requires Wf(c)
    requires forall i :: 0 <= i < |s| ==> s[i] in c.objs
  {
    && SweepStep(c, d, out, now)
    && (forall x :: x in d.peers <==> x in c.peers && !(x in s && x in c.objs && Lag(c, x, now) > DROP_AFTER_MS))
    && Recipients(out) == PingTargets(c, now, s)
    && d.seqNo == c.seqNo + |InBand(c, now, s)|
  }

  /** What visiting the head of a snapshot leaves for the rest of it: the
      other listed peers are still registered and their objects unchanged. */
  lemma VisitHead(c: Context, now: int, s: seq<PeerId>)
    requires Wf(c) && Increasing(s) && s != []
    requires forall i :: 0 <= i < |s| ==> s[i] in c.peers
    ensures var v := Visit(c, s[0], now);
      && Wf(v.ctx) && SameClocks(c, v.ctx)
      && (forall i :: 0 <= i < |s[1..]| ==> s[1..][i] in v.ctx.peers && v.ctx.objs[s[1..][i]] == c.objs[s[1..][i]])
      && (forall y :: y in v.ctx.peers <==> y in c.peers && !(y == s[0] && Lag(c, y, now) > DROP_AFTER_MS))
      && (forall y :: y in v.ctx.peers && y != s[0] ==> v.ctx.objs[y] == c.objs[y])
      && Recipients(v.out) == (if PING_AFTER_MS < Lag(c, s[0], now) <= DROP_AFTER_MS && c.objs[s[0]].socket == Open then [s[0]] else [])
      && v.ctx.seqNo == c.seqNo + (if PING_AFTER_MS < Lag(c, s[0], now) <= DROP_AFTER_MS then 1 else 0)
  {
    var x := s[0];
    var t := s[1..];
    var v := Visit(c, x, now);
    if Lag(c, x, now) > DROP_AFTER_MS {
      VisitHeadDrop(c, now, s);
    } else {
      assert v.ctx.peers == c.peers && v.ctx.objs == c.objs;
      forall i | 0 <= i < |t| ensures t[i] in v.ctx.peers {
        assert t[i] == s[i + 1];
      }
    }
  }

  /** The dropping case of `VisitHead`: the head leaves the registry and
      every other peer stays, with its object. */
  lemma VisitHeadDrop(c: Context, now: int, s: seq<PeerId>)
    requires Wf(c) && Increasing(s) && s != []
    requires forall i :: 0 <= i < |s| ==> s[i] in c.peers
    requires Lag(c, s[0], now) > DROP_AFTER_MS
    ensures var d := DropPeer(c, s[0]);
      && (forall i :: 0 <= i < |s[1..]| ==> s[1..][i] in d.peers && d.objs[s[1..][i]] == c.objs[s[1..][i]])
      && (forall y :: y in d.peers <==> y in c.peers && y != s[0])
  {
    var x := s[0];
    var t := s[1..];
    var d := DropPeer(c, x);
    RemoveFirstIsWithout(c.peers, x);
    IncreasingTail(s);
    forall i | 0 <= i < |t| ensures t[i] in d.peers && d.objs[t[i]] == c.objs[t[i]] {
      assert t[i] == s[i + 1];
      assert t[i] in c.peers && t[i] != x;
    }
  }

  /** Visiting the first listed peer and then sweeping the rest of the list
      is a sweep of the whole list. */
  lemma SnapshotCons(c: Context, now: int, s: seq<PeerId>, d: Context, o2: seq<Send>)
    requires Wf(c) && Increasing(s) && s != []
    requires forall i :: 0 <= i < |s| ==> s[i] in c.peers
    requires var v := Visit(c, s[0], now);
      && Wf(v.ctx)
      && (forall i :: 0 <= i < |s[1..]| ==> s[1..][i] in v.ctx.objs)
      && SnapshotSpec(v.ctx, d, o2, now, s[1..])
    ensures SnapshotSpec(c, d, Visit(c, s[0], now).out + o2, now, s)
  {
    var x := s[0];
    var t := s[1..];
    var v := Visit(c, x, now);
    VisitHead(c, now, s);
    VisitStep(c, x, now);
    ComposeSteps(c, v.ctx, d, v.out, o2, now);
    IncreasingTail(s);
    FiltersAgree(c, v.ctx, now, t);
    RecipientsAppend(v.out, o2);
    assert Recipients(v.out + o2) == PingTargets(c, now, s);
    assert d.seqNo == c.seqNo + |InBand(c, now, s)|;
    forall y ensures y in d.peers <==> y in c.peers && !(y in s && y in c.objs && Lag(c, y, now) > DROP_AFTER_MS) {
      assert y in s <==> y == x || y in t;
      if y in t {
        assert y in v.ctx.peers && v.ctx.objs[y] == c.objs[y];
      }
    }
  }

  /** The sweep over a snapshot `s` of the registry, each listed peer
      visited once whatever the visits before it removed. */
  function SweepList(c: Context, now: int, s: seq<PeerId>): (r: Step)
    requires Wf(c) && Increasing(s)
    requires forall i :: 0 <= i < |s| ==> s[i] in c.peers
    ensures SnapshotSpec(c, r.ctx, r.out, now, s)
    ensures r.announced == []
    decreases |s|
  {
    if s == [] then Step(c, [], [])
    else
      var v := Visit(c, s[0], now);
      VisitHead(c, now, s);
      IncreasingTail(s);
      var rest := SweepList(v.ctx, now, s[1..]);
      SnapshotCons(c, now, s, rest.ctx, rest.out);
      Step(rest.ctx, v.out + rest.out, [])
  }

  /** Where the live walk resumes in the list `s` after visiting `s[0]`:
      the next peer, or the one after it when `s[0]` was dropped. */
  function Rest(c: Context, now: int, s: seq<PeerId>): (t: seq<PeerId>)
    requires s != [] && s[0] in c.objs
    ensures Lag(c, s[0], now) > DROP_AFTER_MS && |s| >= 2 ==> t == s[2..]
    ensures Lag(c, s[0], now) <= DROP_AFTER_MS || |s| < 2 ==> t == s[1..]
  {
    if Lag(c, s[0], now) > DROP_AFTER_MS && |s| >= 2 then s[2..] else s[1..]
  }

  /** The peers of the list `s` that the live `forEach` visits. The first is
      always visited; when a visit drops its peer, `splice` shifts the rest
      of the array left under the index just visited, so the next peer is
      skipped and the walk resumes with the one after it. */
  function Visited(c: Context, now: int, s: seq<PeerId>): (r: seq<PeerId>)
    requires forall i :: 0 <= i < |s| ==> s[i] in c.objs
    ensures forall y :: y in r ==> y in s
    ensures forall i :: 0 <= i < |r| ==> r[i] in c.objs
    ensures Increasing(s) ==> Increasing(r)
    decreases |s|
  {
    if s == [] then []
    else
      var t := Rest(c, now, s);
      var rest := Visited(c, now, t);
      if Increasing(s) then
        IncreasingTail(s);
        assert forall y :: y in t ==> y in s[1..];
        assert Increasing(t);
        IncreasingCons(s[0], rest);
        [s[0]] + rest
      else
        [s[0]] + rest
  }

  /** The skip rule of the live walk: in a registry without duplicates the
      first peer is visited, and any later peer is skipped exactly when the
      peer before it was visited and dropped. */
  lemma {:induction false} SkipRule(c: Context, now: int, s: seq<PeerId>)
    requires Increasing(s)
    requires forall i :: 0 <= i < |s| ==> s[i] in c.objs
    ensures s != [] ==> s[0] in Visited(c, now, s)
    ensures forall i :: 0 < i < |s| ==>
      (s[i] !in Visited(c, now, s) <==> s[i - 1] in Visited(c, now, s) && Lag(c, s[i - 1], now) > DROP_AFTER_MS)
    decreases |s|
  {
    if s != [] {
      var t := Rest(c, now, s);
      IncreasingTail(s);
      assert Increasing(t);
      SkipRule(c, now, t);
      forall i | 0 < i < |s|
        ensures s[i] !in Visited(c, now, s) <==> s[i - 1] in Visited(c, now, s) && Lag(c, s[i - 1], now) > DROP_AFTER_MS
      {
        SkipAt(c, now, s, i);
      }
    }
  }

  /** One index of the skip rule, given the rule for where the walk resumes. */
  lemma SkipAt(c: Context, now: int, s: seq<PeerId>, i: nat)
    requires Increasing(s) && 0 < i < |s|
    requires forall j :: 0 <= j < |s| ==> s[j] in c.objs
    requires var t := Rest(c, now, s);
      && (t != [] ==> t[0] in Visited(c, now, t))
      && (forall j :: 0 < j < |t| ==>
           (t[j] !in Visited(c, now, t) <==> t[j - 1] in Visited(c, now, t) && Lag(c, t[j - 1], now) > DROP_AFTER_MS))
    ensures s[i] !in Visited(c, now, s) <==> s[i - 1] in Visited(c, now, s) && Lag(c, s[i - 1], now) > DROP_AFTER_MS
  {
    if Lag(c, s[0], now) > DROP_AFTER_MS {
      SkipAtAfterDrop(c, now, s, i);
    } else {
      SkipAtAfterLive(c, now, s, i);
    }
  }

  /** The skip rule at one index when the head stays: the walk resumes at
      the next peer. */
  lemma SkipAtAfterLive(c: Context, now: int, s: seq<PeerId>, i: nat)
    requires Increasing(s) && 0 < i < |s|
    requires forall j :: 0 <= j < |s| ==> s[j] in c.objs
    requires var t := Rest(c, now, s);
      && (t != [] ==> t[0] in Visited(c, now, t))
      && (forall j :: 0 < j < |t| ==>
           (t[j] !in Visited(c, now, t) <==> t[j - 1] in Visited(c, now, t) && Lag(c, t[j - 1], now) > DROP_AFTER_MS))
    requires Lag(c, s[0], now) <= DROP_AFTER_MS
    ensures s[i] !in Visited(c, now, s) <==> s[i - 1] in Visited(c, now, s) && Lag(c, s[i - 1], now) > DROP_AFTER_MS
  {
    var t := Rest(c, now, s);
    var r := Visited(c, now, s);
    var rt := Visited(c, now, t);
    assert r == [s[0]] + rt;
    IncreasingTail(s);
    assert s[i] != s[0] && (s[i] in r <==> s[i] in rt);
    assert t == s[1..] && t[i - 1] == s[i];
    if i >= 2 {
      assert t[i - 2] == s[i - 1] && s[i - 1] != s[0];
    }
  }

  /** The skip rule at one index when the head is dropped: the walk resumes
      two places on, so the second peer is never visited. */
  lemma SkipAtAfterDrop(c: Context, now: int, s: seq<PeerId>, i: nat)
    requires Increasing(s) && 0 < i < |s|
    requires forall j :: 0 <= j < |s| ==> s[j] in c.objs
    requires var t := Rest(c, now, s);
      && (t != [] ==> t[0] in Visited(c, now, t))
      && (forall j :: 0 < j < |t| ==>
           (t[j] !in Visited(c, now, t) <==> t[j - 1] in Visited(c, now, t) && Lag(c, t[j - 1], now) > DROP_AFTER_MS))
    requires Lag(c, s[0], now) > DROP_AFTER_MS
    ensures s[i] !in Visited(c, now, s) <==> s[i - 1] in Visited(c, now, s) && Lag(c, s[i - 1], now) > DROP_AFTER_MS
  {
    var t := Rest(c, now, s);
    var r := Visited(c, now, s);
    var rt := Visited(c, now, t);
    assert r == [s[0]] + rt;
    IncreasingTail(s);
    assert s[i] != s[0] && (s[i] in r <==> s[i] in rt);
    assert t == s[2..];
    assert s[1] !in t by {
      forall j | 0 <= j < |t| ensures t[j] != s[1] {
        assert t[j] == s[j + 2];
      }
    }
    if i >= 2 {
      assert t[i - 2] == s[i];
      assert s[i - 1] != s[0] && (s[i - 1] in r <==> s[i - 1] in rt);
      if i >= 3 {
        assert t[i - 3] == s[i - 1];
      }
    }
  }

  /** `Visited` reads only the clocks of the listed peers. */
  lemma {:induction false} VisitedClocks(c: Context, d: Context, now: int, s: seq<PeerId>)
    requires forall i :: 0 <= i < |s| ==> s[i] in c.objs && s[i] in d.objs
    requires forall i :: 0 <= i < |s| ==> d.objs[s[i]].timeOfLastMessage == c.objs[s[i]].timeOfLastMessage
    ensures Visited(c, now, s) == Visited(d, now, s)
    decreases |s|
  {
    if s != [] {
      assert Lag(c, s[0], now) == Lag(d, s[0], now);
      VisitedClocks(c, d, now, Rest(c, now, s));
    }
  }

  /** Reference walk: visit the listed peers in order, nothing skipped. */
  function Walk(c: Context, now: int, s: seq<PeerId>): Step
    requires forall i :: 0 <= i < |s| ==> s[i] in c.objs
    decreases |s|
  {
    if s == [] then Step(c, [], [])
    else
      var v := Visit(c, s[0], now);
      var rest := Walk(v.ctx, now, s[1..]);
      Step(rest.ctx, v.out + rest.out, [])
  }

  /** Over a list of registered peers, the reference walk is the snapshot
      sweep. */
  lemma {:induction false} WalkIsSweep(c: Context, now: int, s: seq<PeerId>)
    requires Wf(c) && Increasing(s)
    requires forall i :: 0 <= i < |s| ==> s[i] in c.peers
    ensures Walk(c, now, s) == SweepList(c, now, s)
    decreases |s|
  {
    if s != [] {
      VisitHead(c, now, s);
      IncreasingTail(s);
      WalkIsSweep(Visit(c, s[0], now).ctx, now, s[1..]);
    }
  }

  /** Past the end of the shrunken registry the walk does nothing. */
  lemma {:induction false} PingFromPast(c: Context, now: int, k: nat, n: nat)
    requires Wf(c) && k >= |c.peers|
    ensures PingFrom(c, now, k, n) == Step(c, [], [])
    decreases n - k
  {
    if k < n {
      PingFromPast(c, now, k + 1, n);
    }
  }

  /** After the visit at index `k`, the registry from index `k + 1` on holds
      what `Rest` says the walk resumes with. */
  lemma AfterVisit(c: Context, now: int, k: nat)
    requires Wf(c) && k < |c.peers|
    ensures var v := Visit(c, c.peers[k], now);
      && Wf(v.ctx) && SameClocks(c, v.ctx)
      && (|v.ctx.peers| == k ==> Rest(c, now, c.peers[k..]) == [])
      && (|v.ctx.peers| != k ==> k + 1 <= |v.ctx.peers| && v.ctx.peers[k + 1..] == Rest(c, now, c.peers[k..]))
  {
    var x := c.peers[k];
    var s := c.peers[k..];
    assert s[0] == x;
    var v := Visit(c, x, now);
    if Lag(c, x, now) > DROP_AFTER_MS {
      var r := IndexOf(c.peers, x);
      assert x in c.peers[..k + 1];
      assert r == k;
      var p := c.peers[..k] + c.peers[k + 1..];
      assert v.ctx.peers == RemoveAt(c.peers, k) == p;
      if k + 1 < |c.peers| {
        assert p[k + 1..] == c.peers[k + 2..] == s[2..];
      } else {
        assert |p| == k && s[1..] == [];
      }
    } else {
      assert v.ctx.peers == c.peers;
      assert c.peers[k + 1..] == s[1..];
    }
  }

  /** One step of the live walk: visit index `k`, then go on from `k + 1`. */
  lemma PingFromUnfold(c: Context, now: int, k: nat, n: nat)
    requires Wf(c) && k < |c.peers| && k < n
    ensures Wf(Visit(c, c.peers[k], now).ctx)
    ensures var v := Visit(c, c.peers[k], now);
      var rest := PingFrom(v.ctx, now, k + 1, n);
      PingFrom(c, now, k, n) == Step(rest.ctx, v.out + rest.out, [])
  {
    VisitWf(c, c.peers[k], now);
  }

  /** One step of the reference walk. */
  lemma WalkUnfold(c: Context, now: int, x: PeerId, vs: seq<PeerId>)
    requires x in c.objs
    requires forall i :: 0 <= i < |vs| ==> vs[i] in c.objs
    ensures var v := Visit(c, x, now);
      var rest := Walk(v.ctx, now, vs);
      Walk(c, now, [x] + vs) == Step(rest.ctx, v.out + rest.out, [])
  {
    assert ([x] + vs)[0] == x && ([x] + vs)[1..] == vs;
  }

  /** The live `forEach` from index `k` is the reference walk over the peers
      it visits among those from index `k` on. */
  lemma {:induction false} LiveIsVisited(c: Context, now: int, k: nat, n: nat)
    requires Wf(c) && k <= |c.peers| <= n
    ensures PingFrom(c, now, k, n) == Walk(c, now, Visited(c, now, c.peers[k..]))
    decreases n - k
  {
    if k == |c.peers| {
      PingFromPast(c, now, k, n);
      assert c.peers[k..] == [];
    } else {
      var v := Visit(c, c.peers[k], now);
      AfterVisit(c, now, k);
      var t := Rest(c, now, c.peers[k..]);
      VisitedClocks(c, v.ctx, now, t);
      if |v.ctx.peers| == k {
        PingFromPast(v.ctx, now, k + 1, n);
      } else {
        LiveIsVisited(v.ctx, now, k + 1, n);
      }
      LiveStep(c, now, k, n);
    }
  }

  /** One step of `LiveIsVisited`: if the live walk after the visit at
      index `k` is the reference walk over what `Visited` keeps of the
      rest, then so is the live walk from `k`. */
  lemma LiveStep(c: Context, now: int, k: nat, n: nat)
    requires Wf(c) && k < |c.peers| <= n
    requires Wf(Visit(c, c.peers[k], now).ctx)
    requires forall i :: 0 <= i < |Rest(c, now, c.peers[k..])| ==> Rest(c, now, c.peers[k..])[i] in c.objs
    requires var v := Visit(c, c.peers[k], now);
      PingFrom(v.ctx, now, k + 1, n) == Walk(v.ctx, now, Visited(c, now, Rest(c, now, c.peers[k..])))
    ensures PingFrom(c, now, k, n) == Walk(c, now, Visited(c, now, c.peers[k..]))
  {
    var s := c.peers[k..];
    var x := c.peers[k];
    assert s[0] == x;
    PingFromUnfold(c, now, k, n);
    var vs := Visited(c, now, Rest(c, now, s));
    assert Visited(c, now, s) == [x] + vs;
    WalkUnfold(c, now, x, vs);
  }

  /** With nobody past the drop limit nothing is skipped, and the sweep as
      written does what the snapshot sweep does. */
  lemma {:induction false} VisitedAllFresh(c: Context, now: int, s: seq<PeerId>)
    requires forall i :: 0 <= i < |s| ==> s[i] in c.objs && Lag(c, s[i], now) <= DROP_AFTER_MS
    ensures Visited(c, now, s) == s
    decreases |s|
  {
    if s != [] {
      VisitedAllFresh(c, now, s[1..]);
    }
  }

  lemma NoDropNoSkip(c: Context, now: int)
    requires Wf(c)
    requires forall i :: 0 <= i < |c.peers| ==> Lag(c, c.peers[i], now) <= DROP_AFTER_MS
    ensures PingCycle(c, now) == PingCycleSnapshot(c, now)
  {
    LiveIsSweep(c, now);
  }

  /** The chain behind `NoDropNoSkip`: live walk, reference walk over every
      peer, snapshot sweep. */
  lemma LiveIsSweep(c: Context, now: int)
    requires Wf(c)
    requires forall i :: 0 <= i < |c.peers| ==> Lag(c, c.peers[i], now) <= DROP_AFTER_MS
    ensures PingFrom(c, now, 0, |c.peers|) == SweepList(c, now, c.peers)
  {
    LiveIsVisited(c, now, 0, |c.peers|);
    assert c.peers[0..] == c.peers;
    VisitedAllFresh(c, now, c.peers);
    WalkIsSweep(c, now, c.peers);
  }

  /** The sweep over a copy of the registry: exactly the peers past the drop
      limit leave, exactly the open peers in the ping band get one PING
      each, in registry order, numbered upwards from the counter, and the
      counter advances once per peer in the band. */
  function PingCycleSnapshot(c: Context, now: int): (r: Step)
    requires Wf(c)
    ensures Wf(r.ctx) && SameClocks(c, r.ctx) && r.announced == []
    ensures forall i :: 0 <= i < |r.out| ==>
      r.out[i].msg.Ping? && c.seqNo <= r.out[i].msg.sequence < r.ctx.seqNo
    ensures Ascending(r.out)
    ensures forall x :: x in r.ctx.peers <==> x in c.peers && Lag(c, x, now) <= DROP_AFTER_MS
    ensures forall x :: x in c.objs ==>
      r.ctx.objs[x] == (if x in c.peers && Lag(c, x, now) > DROP_AFTER_MS then CloseSocket(c.objs[x]) else c.objs[x])
    ensures Recipients(r.out) == PingTargets(c, now, c.peers)
    ensures r.ctx.seqNo == c.seqNo + |InBand(c, now, c.peers)|
  {
    var r := SweepList(c, now, c.peers);
    assert SnapshotSpec(c, r.ctx, r.out, now, c.peers);
    r
  }

  /** Two peers, both silent since time 0. */
  function TwoSilent(): (c: Context)
    ensures Wf(c)
  {
    var c := Context([0, 1], map[0 := Peer(false, Open, 0), 1 := Peer(false, Open, 0)], [], 0, 2, VERSION);
    assert c.objs.Keys == {0, 1};
    c
  }

  /** With both peers past the drop limit, the as-written sweep drops the
      first and then skips the second, which slid into the index just
      visited. */
  lemma {:induction false} SweepSkipsPeerAfterDrop()
    ensures Lag(TwoSilent(), 1, DROP_AFTER_MS + 1) > DROP_AFTER_MS
    ensures PingCycle(TwoSilent(), DROP_AFTER_MS + 1).ctx.peers == [1]
  {
    var c := TwoSilent();
    var now := DROP_AFTER_MS + 1;
    var v := Visit(c, 0, now);
    assert IndexOf(c.peers, 0) == 0;
    assert v.ctx.peers == [1];
    var r2 := PingFrom(v.ctx, now, 2, 2);
    assert r2.ctx.peers == [1];
    var r1 := PingFrom(v.ctx, now, 1, 2);
    assert r1 == r2;
    var r0 := PingFrom(c, now, 0, 2);
    assert r0.ctx == r1.ctx;
  }

  /** The snapshot sweep drops both. */
  lemma SnapshotDropsBoth()
    ensures PingCycleSnapshot(TwoSilent(), DROP_AFTER_MS + 1).ctx.peers == []
  {
    var c := TwoSilent();
    var r := PingCycleSnapshot(c, DROP_AFTER_MS + 1);
    assert Lag(c, 0, DROP_AFTER_MS + 1) > DROP_AFTER_MS;
    assert Lag(c, 1, DROP_AFTER_MS + 1) > DROP_AFTER_MS;
  }
}

=== FILE: protocol.dfy ===
/** `handleMessage` and the socket `message` handler that wraps it: the
    envelope check, the activity timestamp, and one case per message type.
    A throw inside the handler is caught by the socket handler, which then
    drops the peer; whatever the handler changed before throwing stays
    changed. */
module Protocol {
  import opened Wrappers
  import opened Store
  import opened Wire
  import opened Registry

  /** How `handleMessage` ends: normally, or by throwing with the context as
      it stood at the throw. */
  datatype Outcome = Handled(st: Step) | Threw(ctx: Context)

  /** `peer.mut.timeOfLastMessage = now()`. */
  function Touch(c: Context, id: PeerId, now: int): (r: Context)
    requires id in c.objs
    ensures r.objs.Keys == c.objs.Keys
    ensures r.objs[id] == c.objs[id].(timeOfLastMessage := now)
    ensures forall x :: x in c.objs && x != id ==> r.objs[x] == c.objs[x]
    ensures r.(objs := c.objs) == c
  {
    c.(objs := c.objs[id := c.objs[id].(timeOfLastMessage := now)])
  }

  /** `hexList.filter((x) => !(x in ctx.annByHash))`. */
  function Missing(st: Store, ks: seq<Hash>): (r: seq<Hash>)
    ensures forall k :: k in r <==> k in ks && !Has(st, k)
    ensures |r| <= |ks|
    ensures (forall i :: 0 <= i < |ks| ==> Has(st, ks[i])) ==> r == []
  {
    if ks == [] then []
    else (if Has(st, ks[0]) then [] else [ks[0]]) + Missing(st, ks[1..])
  }

  /** The filter keeps duplicates: an absent hash advertised n times is
      requested n times, a known one never. */
  lemma {:induction false} MissingCounts(st: Store, ks: seq<Hash>)
    ensures forall k :: multiset(Missing(st, ks))[k] == if Has(st, k) then 0 else multiset(ks)[k]
  {
    if ks != [] {
      MissingCounts(st, ks[1..]);
      assert ks == [ks[0]] + ks[1..];
      assert multiset(ks) == multiset([ks[0]]) + multiset(ks[1..]);
    }
  }

  /** The filter keeps advertised order: filtering a concatenation is
      concatenating the filtered parts. */
  lemma {:induction false} MissingAppend(st: Store, a: seq<Hash>, b: seq<Hash>)
    ensures Missing(st, a + b) == Missing(st, a) + Missing(st, b)
  {
    if a != [] {
      var h := if Has(st, a[0]) then [] else [a[0]];
      assert (a + b)[0] == a[0] && (a + b)[1..] == a[1..] + b;
      assert Missing(st, a + b) == h + Missing(st, a[1..] + b);
      assert Missing(st, a) == h + Missing(st, a[1..]);
      MissingAppend(st, a[1..], b);
    } else {
      assert a + b == b;
    }
  }

  /** The GET_DATA requests for the hashes in `need`, in order. */
  function Requests(id: PeerId, first: int, need: seq<Hash>): (out: seq<Send>)
    ensures |out| == |need|
  {
    seq(|need|, i requires 0 <= i < |need| => Send(id, GetData(first + i, need[i])))
  }

  /** `needHex.forEach((x) => sendPeerMsg(ctx, peer, [ctx.mut.seq++,
      'GET_DATA', x]))`: one request per needed hash with consecutive
      sequence numbers; the counter advances even when the socket is not
      open and nothing is sent. */
  function RequestAll(c: Context, id: PeerId, need: seq<Hash>): (r: Step)
    ensures r.ctx == c.(seqNo := c.seqNo + |need|)
    ensures r.announced == []
    ensures r.out == if Sendable(c, id) then Requests(id, c.seqNo, need) else []
    decreases |need|
  {
    if need == [] then Step(c, [], [])
    else
      var first := SendPeerMsg(c, id, GetData(c.seqNo, need[0]));
      var rest := RequestAll(c.(seqNo := c.seqNo + 1), id, need[1..]);
      RequestsCons(id, c.seqNo, need);
      Step(rest.ctx, first + rest.out, [])
  }

  /** The first request, then the requests for the rest numbered from the
      next sequence. */
  lemma RequestsCons(id: PeerId, first: int, need: seq<Hash>)
    requires need != []
    ensures Requests(id, first, need) == [Send(id, GetData(first, need[0]))] + Requests(id, first + 1, need[1..])
  {
    var a := Requests(id, first, need);
    var b := [Send(id, GetData(first, need[0]))] + Requests(id, first + 1, need[1..]);
    assert |a| == |b|;
    forall i | 0 <= i < |a| ensures a[i] == b[i] {
      if i > 0 {
        assert b[i] == Requests(id, first + 1, need[1..])[i - 1];
      }
    }
  }

  /** The `switch (msg[1])` of `handleMessage`, after the timestamp update;
      `sn` is `msg[0]`. */
  function Dispatch(c: Context, id: PeerId, sn: int, kind: string, f: seq<Field>): Outcome
    requires id in c.objs
  {
    var p := c.objs[id];
    if kind == "OLLEH" || kind == "HELLO" then
      if (kind == "HELLO") != p.outgoing then Handled(Step(DropPeer(c, id), [], []))
      else Handled(Step(c, [], []))
    else if kind == "GET_DATA" then
      match At(f, 2)
      case None => Threw(c)
      case Some(x) =>
        match HexString(x)
        case None => Threw(c)
        case Some(h) => Handled(Step(c, SendPeerMsg(c, id, Data(sn, Get(c.annByHash, h))), []))
    else if kind == "PING" then
      Handled(Step(c, SendPeerMsg(c, id, Ack(sn)), []))
    else if kind == "ACK" then
      Handled(Step(c, [], []))
    else if kind == "INV" then
      if !p.outgoing then Handled(Step(c, [], []))
      else
        match HashList(At(f, 3))
        case None => Threw(c)
        case Some(hs) => Handled(RequestAll(c, id, Missing(c.annByHash, hs)))
    else if kind == "DATA" then
      if !p.outgoing || !Truthy(At(f, 2)) then Handled(Step(c, [], []))
      else Handled(Step(c, [], [Announce(id, f[2])]))
    else
      Handled(Step(c, [], []))
  }

  /** `handleMessage(ctx, peer, message)`. */
  function HandleMessage(c: Context, id: PeerId, now: int, m: Inbound): Outcome
    requires id in c.objs
  {
    if !WellFormed(m) then Threw(c)
    else Dispatch(Touch(c, id, now), id, m.fields[0].n, m.fields[1].s, m.fields)
  }

  /** The socket's `message` handler: `handleMessage` inside a try whose
      catch drops the peer. */
  function OnMessage(c: Context, id: PeerId, now: int, m: Inbound): (r: Step)
    requires id in c.objs
    ensures !WellFormed(m) ==> r == Step(DropPeer(c, id), [], [])
    ensures r.ctx.annByHash == c.annByHash
    ensures r.ctx.peerIdSeq == c.peerIdSeq && r.ctx.version == c.version
    ensures r.ctx.seqNo >= c.seqNo
    ensures r.ctx.objs.Keys == c.objs.Keys
    ensures WellFormed(m) ==> r.ctx.objs[id].timeOfLastMessage == now
    ensures forall x :: x in c.objs && x != id ==> r.ctx.objs[x] == c.objs[x]
    ensures forall i :: 0 <= i < |r.out| ==> r.out[i].to == id
    ensures r.out != [] ==> Sendable(c, id)
    ensures |r.announced| <= 1
    ensures forall i :: 0 <= i < |r.announced| ==> r.announced[i].from == id
    ensures Increasing(c.peers) ==> r.ctx.peers == c.peers || r.ctx.peers == Without(c.peers, id)
    ensures Wf(c) ==> Wf(r.ctx)
  {
    if !WellFormed(m) then Step(DropPeer(c, id), [], [])
    else
      DispatchFrame(Touch(c, id, now), id, m.fields[0].n, m.fields[1].s, m.fields);
      match HandleMessage(c, id, now, m)
      case Handled(st) => st
      case Threw(c') => Step(DropPeer(c', id), [], [])
  }

  /** Every case of the switch either throws with the context it was given,
      or ends with that context (its counter perhaps advanced) or with the
      peer dropped from it; it sends only to this peer, only when its socket
      is open, and invokes the callback at most once, for this peer. */
  lemma DispatchFrame(c: Context, id: PeerId, sn: int, kind: string, f: seq<Field>)
    requires id in c.objs
    ensures Framed(c, id, Dispatch(c, id, sn, kind, f))
  {
    if kind == "INV" && c.objs[id].outgoing && HashList(At(f, 3)).Some? {
      var st := RequestAll(c, id, Missing(c.annByHash, HashList(At(f, 3)).value));
      assert forall i :: 0 <= i < |st.out| ==> st.out[i].to == id;
      assert Framed(c, id, Handled(st));
    } else if kind == "GET_DATA" || kind == "PING" {
      assert Framed(c, id, Dispatch(c, id, sn, kind, f));
    }
  }

  /** What the catch and the callers rely on from one case of the switch. */
  ghost predicate Framed(c: Context, id: PeerId, o: Outcome)
    requires id in c.objs
  {
    && (o.Threw? ==> o.ctx == c)
    && (o.Handled? ==>
      && (o.st.ctx == c.(seqNo := o.st.ctx.seqNo) || o.st.ctx == DropPeer(c, id))
      && o.st.ctx.seqNo >= c.seqNo
      && (forall i :: 0 <= i < |o.st.out| ==> o.st.out[i].to == id)
      && (o.st.out != [] ==> Sendable(c, id))
      && |o.st.announced| <= 1
      && (forall i :: 0 <= i < |o.st.announced| ==> o.st.announced[i].from == id))
  }

  /** A frame whose envelope reads `[sn, kind, ...]`. */
  predicate Frame(m: Inbound, sn: int, kind: string) {
    m.Decoded? && |m.fields| >= 2 && m.fields[0] == Num(sn) && m.fields[1] == Str(kind)
  }

  /** HELLO and OLLEH: the peer is dropped exactly when the type disagrees
      with its direction (HELLO is expected on a peer this node dialed,
      OLLEH on one that dialed in); nothing is sent either way. */
  lemma HelloDirection(c: Context, id: PeerId, now: int, m: Inbound, sn: int, kind: string)
    requires Wf(c) && id in c.objs && id in c.peers
    requires kind == "HELLO" || kind == "OLLEH"
    requires Frame(m, sn, kind)
    ensures var r := OnMessage(c, id, now, m);
      && r.out == [] && r.announced == []
      && (id !in r.ctx.peers <==> (kind == "HELLO") != c.objs[id].outgoing)
  {
    var t := Touch(c, id, now);
    assert Wf(t);
  }

  /** PING with sequence `sn` is answered by exactly one `[sn, 'ACK']` when
      the socket is open, and changes nothing but the timestamp. */
  lemma PingReply(c: Context, id: PeerId, now: int, m: Inbound, sn: int)
    requires id in c.objs && Frame(m, sn, "PING")
    ensures var r := OnMessage(c, id, now, m);
      && r.out == (if Sendable(c, id) then [Send(id, Ack(sn))] else [])
      && r.ctx == Touch(c, id, now)
      && r.announced == []
  {
  }

  /** GET_DATA with sequence `sn` for a readable hash is answered by exactly
      one `[sn, 'DATA', payload-or-null]` when the socket is open, and
      changes neither the store nor the sequence counter. */
  lemma GetDataReply(c: Context, id: PeerId, now: int, m: Inbound, sn: int, h: Hash)
    requires id in c.objs && Frame(m, sn, "GET_DATA")
    requires |m.fields| > 2 && HexString(m.fields[2]) == Some(h)
    ensures var r := OnMessage(c, id, now, m);
      && r.out == (if Sendable(c, id) then [Send(id, Data(sn, Get(c.annByHash, h)))] else [])
      && r.ctx == Touch(c, id, now)
      && r.announced == []
  {
  }

  /** GET_DATA without a readable hash field throws after the timestamp
      update, so the peer is dropped with its timestamp already refreshed. */
  lemma GetDataBadHash(c: Context, id: PeerId, now: int, m: Inbound, sn: int)
    requires id in c.objs && Frame(m, sn, "GET_DATA")
    requires |m.fields| == 2 || HexString(m.fields[2]).None?
    ensures OnMessage(c, id, now, m) == Step(DropPeer(Touch(c, id, now), id), [], [])
  {
  }

  /** INV from a peer that dialed in is ignored, whatever it carries. */
  lemma InvFromIncoming(c: Context, id: PeerId, now: int, m: Inbound, sn: int)
    requires id in c.objs && !c.objs[id].outgoing && Frame(m, sn, "INV")
    ensures OnMessage(c, id, now, m) == Step(Touch(c, id, now), [], [])
  {
  }

  /** INV from a dialed peer requests exactly the advertised hashes the store
      lacks, in advertised order, numbered from the counter, which advances
      by that many whether or not the requests could be sent. */
  lemma InvFromOutgoing(c: Context, id: PeerId, now: int, m: Inbound, sn: int, hs: seq<Hash>)
    requires id in c.objs && c.objs[id].outgoing && Frame(m, sn, "INV")
    requires HashList(At(m.fields, 3)) == Some(hs)
    ensures var r := OnMessage(c, id, now, m);
      var need := Missing(c.annByHash, hs);
      && r.ctx == Touch(c, id, now).(seqNo := c.seqNo + |need|)
      && r.out == (if Sendable(c, id) then Requests(id, c.seqNo, need) else [])
      && r.announced == []
  {
  }

  /** INV from a dialed peer whose hash list cannot be read (absent, not an
      array, a non-empty Buffer, or an item that throws) throws after the
      timestamp update, so the peer is dropped with its timestamp refreshed. */
  lemma InvBadList(c: Context, id: PeerId, now: int, m: Inbound, sn: int)
    requires id in c.objs && c.objs[id].outgoing && Frame(m, sn, "INV")
    requires HashList(At(m.fields, 3)).None?
    ensures OnMessage(c, id, now, m) == Step(DropPeer(Touch(c, id, now), id), [], [])
  {
  }

  /** An INV listing only known hashes sends nothing and leaves the counter. */
  lemma {:induction false} InvAllKnown(c: Context, id: PeerId, now: int, m: Inbound, sn: int, hs: seq<Hash>)
    requires id in c.objs && c.objs[id].outgoing && Frame(m, sn, "INV")
    requires HashList(At(m.fields, 3)) == Some(hs)
    requires forall i :: 0 <= i < |hs| ==> Has(c.annByHash, hs[i])
    ensures var r := OnMessage(c, id, now, m);
      r.out == [] && r.ctx.seqNo == c.seqNo
  {
    InvFromOutgoing(c, id, now, m, sn, hs);
  }

  /** DATA invokes `onAnnounce` once with the payload exactly when the peer
      was dialed by this node and the payload is truthy; it sends nothing
      and leaves the store alone. */
  lemma DataAnnounce(c: Context, id: PeerId, now: int, m: Inbound, sn: int)
    requires id in c.objs && Frame(m, sn, "DATA")
    ensures var r := OnMessage(c, id, now, m);
      && r.out == [] && r.ctx == Touch(c, id, now)
      && (r.announced != [] <==> c.objs[id].outgoing && Truthy(At(m.fields, 2)))
      && (r.announced != [] ==> r.announced == [Announce(id, m.fields[2])])
  {
  }
}

=== FILE: registry.dfy ===
/** The shared context and the peer registry: peer creation (`mkPeer`),
    removal (`dropPeer`) and the send guard (`socketSendable`/`sendPeerMsg`).

    A JS peer is an object that the socket handlers keep a reference to even
    after the registry has forgotten it, so peer objects live in `objs`
    (every peer ever created, by id) and the registry `peers` is the array
    of references, held as ids. */
module Registry {
  import opened Store
  import opened Wire

  type PeerId = nat

  /** The WebSocket `readyState` values 0..3. */
  datatype SocketState = Connecting | Open | Closing | Closed

  datatype Peer = Peer(outgoing: bool, socket: SocketState, timeOfLastMessage: int)

  datatype Context = Context(
    peers: seq<PeerId>,
    objs: map<PeerId, Peer>,
    annByHash: Store,
    seqNo: int,
    peerIdSeq: nat,
    version: int)

  /** One `socket.send` of a message to a peer. */
  datatype Send = Send(to: PeerId, msg: Msg)

  /** One invocation of the registered `onAnnounce(peer, payload)`. */
  datatype Announce = Announce(from: PeerId, payload: Field)

  /** What one event does: the new context, the sends in order and the
      callback invocations in order. */
  datatype Step = Step(ctx: Context, out: seq<Send>, announced: seq<Announce>)

  const VERSION := 1

  predicate Increasing(s: seq<PeerId>) {
    forall i, j :: 0 <= i < j < |s| ==> s[i] < s[j]
  }

  /** The invariant every reachable context keeps: the registry lists
      created peers, each once, in creation order, and every created peer's
      id was handed out by the id counter. */
  predicate Wf(c: Context) {
    && Increasing(c.peers)
    && (forall i :: 0 <= i < |c.peers| ==> c.peers[i] in c.objs)
    && (forall id :: id in c.objs ==> id < c.peerIdSeq)
  }

  /** `create()`: no peers, an empty store, version 1, and the sequence
      counter seeded from the clock (`seed`). */
  function Create(seed: int): (c: Context)
    ensures Wf(c)
    ensures c.peers == [] && Keys(c.annByHash) == []
    ensures c.objs == map[] && c.seqNo == seed && c.peerIdSeq == 0 && c.version == VERSION
  {
    Context([], map[], [], seed, 0, VERSION)
  }

  /** `s.indexOf(x)`: the first position of `x`, or -1. */
  function IndexOf(s: seq<PeerId>, x: PeerId): (r: int)
    ensures -1 <= r < |s|
    ensures r == -1 <==> x !in s
    ensures r >= 0 ==> s[r] == x && x !in s[..r]
  {
    if s == [] then -1
    else if s[0] == x then 0
    else
      var r := IndexOf(s[1..], x);
      if r == -1 then -1
      else
        assert s[..r + 1] == [s[0]] + s[1..][..r];
        r + 1
  }

  /** The registry after `idx = indexOf(x); if (idx !== -1) splice(idx, 1)`. */
  function RemoveFirst(s: seq<PeerId>, x: PeerId): seq<PeerId> {
    var idx := IndexOf(s, x);
    if idx != -1 then RemoveAt(s, idx) else s
  }

  lemma IncreasingTail(s: seq<PeerId>)
    requires Increasing(s) && s != []
    ensures Increasing(s[1..])
    ensures forall y :: y in s[1..] ==> s[0] < y
  {
    var t := s[1..];
    forall i, j | 0 <= i < j < |t| ensures t[i] < t[j] {
      assert t[i] == s[i + 1] && t[j] == s[j + 1];
    }
    forall y | y in t ensures s[0] < y {
      var j :| 0 <= j < |t| && t[j] == y;
      assert s[j + 1] == y;
    }
  }

  lemma IncreasingCons(x: PeerId, t: seq<PeerId>)
    requires Increasing(t) && forall y :: y in t ==> x < y
    ensures Increasing([x] + t)
  {
    var s := [x] + t;
    forall i, j | 0 <= i < j < |s| ensures s[i] < s[j] {
      assert s[j] == t[j - 1];
      if i > 0 { assert s[i] == t[i - 1]; } else { assert s[j] in t; }
    }
  }

  /** Reference definition: `s` with every `x` filtered out, order kept. */
  function Without(s: seq<PeerId>, x: PeerId): (r: seq<PeerId>)
    ensures forall y :: y in r <==> y in s && y != x
    ensures Increasing(s) ==> Increasing(r)
  {
    if s == [] then []
    else
      var tail := Without(s[1..], x);
      if Increasing(s) then
        IncreasingTail(s);
        IncreasingCons(s[0], tail);
        if s[0] == x then tail else [s[0]] + tail
      else
        if s[0] == x then tail else [s[0]] + tail
  }

  lemma {:induction false} WithoutAbsent(s: seq<PeerId>, x: PeerId)
    requires x !in s
    ensures Without(s, x) == s
  {
    if s != [] {
      WithoutAbsent(s[1..], x);
    }
  }

  lemma RemoveFirstCons(s: seq<PeerId>, x: PeerId)
    requires s != [] && s[0] != x
    ensures RemoveFirst(s, x) == [s[0]] + RemoveFirst(s[1..], x)
  {
    var t := s[1..];
    var idx := IndexOf(t, x);
    var i := IndexOf(s, x);
    if idx != -1 {
      assert i == idx + 1;
      var a := s[..i] + s[i + 1..];
      var b := [s[0]] + (t[..idx] + t[idx + 1..]);
      assert |a| == |b|;
      forall k | 0 <= k < |a| ensures a[k] == b[k] {
        if k == 0 {
        } else if k < i {
          assert a[k] == s[k] && b[k] == t[k - 1];
        } else {
          assert a[k] == s[k + 1] && b[k] == t[k];
        }
      }
      assert a == b;
    } else {
      assert i == -1;
    }
  }

  /** In a registry without duplicates, splicing out the first occurrence
      removes the peer altogether. */
  lemma {:induction false} RemoveFirstIsWithout(s: seq<PeerId>, x: PeerId)
    requires Increasing(s)
    ensures RemoveFirst(s, x) == Without(s, x)
  {
    if s == [] {
    } else if s[0] == x {
      IncreasingTail(s);
      WithoutAbsent(s[1..], x);
      assert IndexOf(s, x) == 0;
    } else {
      IncreasingTail(s);
      RemoveFirstIsWithout(s[1..], x);
      RemoveFirstCons(s, x);
    }
  }

  /** Every registry entry is a created peer object. */
  lemma WithoutInObjs(c: Context, x: PeerId)
    requires Wf(c)
    ensures forall i :: 0 <= i < |Without(c.peers, x)| ==> Without(c.peers, x)[i] in c.objs
  {
    var w := Without(c.peers, x);
    forall i | 0 <= i < |w| ensures w[i] in c.objs {
      assert w[i] in w;
      var j :| 0 <= j < |c.peers| && c.peers[j] == w[i];
    }
  }

  /** `dropPeer(ctx, peer)`: close the socket unless it is already closing or
      closed (close moves it to Closing), then splice the peer out of the
      registry if it is there. */
  function DropPeer(c: Context, id: PeerId): (r: Context)
    requires id in c.objs
    ensures r.annByHash == c.annByHash && r.seqNo == c.seqNo
    ensures r.peerIdSeq == c.peerIdSeq && r.version == c.version
    ensures r.objs.Keys == c.objs.Keys
    ensures forall x :: x in c.objs && x != id ==> r.objs[x] == c.objs[x]
    ensures r.objs[id].outgoing == c.objs[id].outgoing
    ensures r.objs[id].timeOfLastMessage == c.objs[id].timeOfLastMessage
    ensures r.objs[id].socket == Closing || r.objs[id].socket == Closed
    ensures c.objs[id].socket == Closing || c.objs[id].socket == Closed ==> r.objs[id] == c.objs[id]
    ensures c.objs[id].socket == Open || c.objs[id].socket == Connecting ==>
      r.objs[id] == c.objs[id].(socket := Closing)
    ensures id !in c.peers ==> r.peers == c.peers
    ensures Increasing(c.peers) ==> r.peers == Without(c.peers, id)
    ensures Wf(c) ==> Wf(r)
  {
    var p := c.objs[id];
    var objs := if p.socket != Closing && p.socket != Closed
      then c.objs[id := p.(socket := Closing)] else c.objs;
    var r := c.(peers := RemoveFirst(c.peers, id), objs := objs);
    if Increasing(c.peers) then
      RemoveFirstIsWithout(c.peers, id);
      if Wf(c) then WithoutInObjs(c, id); r else r
    else r
  }

  /** The peer object after the `socket.close()` of `dropPeer`: a socket
      not yet closing moves to Closing, and one closing or closed stays. */
  function CloseSocket(p: Peer): Peer {
    if p.socket == Open || p.socket == Connecting then p.(socket := Closing) else p
  }

  /** Dropping a peer twice does what dropping it once does. */
  lemma DropPeerIdempotent(c: Context, id: PeerId)
    requires Wf(c) && id in c.objs
    ensures DropPeer(DropPeer(c, id), id) == DropPeer(c, id)
  {
    var d := DropPeer(c, id);
    var e := DropPeer(d, id);
    assert e.objs == d.objs;
    assert e.peers == d.peers;
  }

  /** `socketSendable(peer.socket)`: the socket is OPEN. */
  predicate Sendable(c: Context, id: PeerId) {
    id in c.objs && c.objs[id].socket == Open
  }

  /** `sendPeerMsg(ctx, peer, msg)`: the message goes out only on an open
      socket; otherwise it is silently skipped. */
  function SendPeerMsg(c: Context, id: PeerId, m: Msg): (out: seq<Send>)
    ensures |out| <= 1
    ensures out != [] <==> Sendable(c, id)
    ensures forall i :: 0 <= i < |out| ==> out[i] == Send(id, m)
  {
    if Sendable(c, id) then [Send(id, m)] else []
  }

  /** The peers of `sends`, in send order. */
  function Recipients(sends: seq<Send>): seq<PeerId> {
    seq(|sends|, i requires 0 <= i < |sends| => sends[i].to)
  }

  lemma RecipientsAppend(a: seq<Send>, b: seq<Send>)
    ensures Recipients(a + b) == Recipients(a) + Recipients(b)
  {
  }

  /** `mkPeer(ctx, socket, isOutgoing)`: a peer object with the next id and
      the current time; it is not yet in the registry. */
  function MkPeer(c: Context, socket: SocketState, outgoing: bool, now: int): (r: (Context, PeerId))
    ensures r.1 == c.peerIdSeq && r.0.peerIdSeq == c.peerIdSeq + 1
    ensures r.0.objs.Keys == c.objs.Keys + {r.1}
    ensures r.0.objs[r.1] == Peer(outgoing, socket, now)
    ensures forall x :: x in c.objs && x != r.1 ==> r.0.objs[x] == c.objs[x]
    ensures r.0.peers == c.peers && r.0.annByHash == c.annByHash
    ensures r.0.seqNo == c.seqNo && r.0.version == c.version
    ensures Wf(c) ==> Wf(r.0) && r.1 !in c.objs
    ensures Wf(c) ==> forall i :: 0 <= i < |c.peers| ==> c.peers[i] < r.1
  {
    var id := c.peerIdSeq;
    (c.(objs := c.objs[id := Peer(outgoing, socket, now)], peerIdSeq := id + 1), id)
  }

  /** `ctx.peers.push(peer)`: the peer goes to the end of the registry and
      nothing else changes; pushing a freshly made peer keeps the
      invariant. */
  function Register(c: Context, id: PeerId): (r: Context)
    ensures r.peers == c.peers + [id]
    ensures r.(peers := c.peers) == c
    ensures Wf(c) && id in c.objs && (forall i :: 0 <= i < |c.peers| ==> c.peers[i] < id) ==> Wf(r)
  {
    c.(peers := c.peers + [id])
  }
}

=== FILE: store.dfy ===
/** The announcement store `ctx.annByHash`: a JS object used as a map from hex
    hash key to payload. A JS object remembers the order in which its keys
    were first added (`Object.keys` lists them in that order, and overwriting
    a key keeps its place), so the store is an insertion-ordered list of
    entries with distinct keys. */
module Store {
  import opened Wrappers
  import opened Hex

  type Hash = string

  datatype Entry = Entry(key: Hash, value: Bytes)

  predicate DistinctKeys(es: seq<Entry>) {
    forall i, j :: 0 <= i < j < |es| ==> es[i].key != es[j].key
  }

  type Store = es: seq<Entry> | DistinctKeys(es) witness []

  /** `Object.keys(ctx.annByHash)`. */
  function Keys(es: seq<Entry>): (ks: seq<Hash>)
    ensures |ks| == |es|
    ensures forall i :: 0 <= i < |es| ==> ks[i] == es[i].key
  {
    if es == [] then [] else [es[0].key] + Keys(es[1..])
  }

  /** `k in ctx.annByHash`. */
  predicate Has(st: Store, k: Hash) {
    k in Keys(st)
  }

  /** `ctx.annByHash[k]`, None standing for `undefined`. */
  function Get(st: seq<Entry>, k: Hash): (r: Option<Bytes>)
    ensures r.None? <==> k !in Keys(st)
    ensures r.Some? ==> Entry(k, r.value) in st
  {
    if st == [] then None
    else if st[0].key == k then Some(st[0].value)
    else Get(st[1..], k)
  }

  /** Where key `k` sits in the store. */
  function KeyIndex(es: seq<Entry>, k: Hash): (i: nat)
    requires k in Keys(es)
    ensures i < |es| && es[i].key == k
  {
    if es[0].key == k then 0
    else
      assert Keys(es) == [es[0].key] + Keys(es[1..]);
      1 + KeyIndex(es[1..], k)
  }

  /** With distinct keys, the entry at any position is what a lookup of its
      key finds. */
  lemma {:induction false} GetAt(es: seq<Entry>, i: nat)
    requires DistinctKeys(es) && i < |es|
    ensures Get(es, es[i].key) == Some(es[i].value)
  {
    if i > 0 {
      assert es[1..][i - 1] == es[i];
      GetAt(es[1..], i - 1);
    }
  }

  lemma {:induction false} GetAppend(a: seq<Entry>, e: Entry, k: Hash)
    ensures Get(a + [e], k) == if k in Keys(a) then Get(a, k) else if e.key == k then Some(e.value) else None
  {
    if a != [] {
      assert (a + [e])[1..] == a[1..] + [e];
      GetAppend(a[1..], e, k);
    }
  }

  /** `ctx.annByHash[k] = v`: last write wins; a new key goes to the end. */
  function Put(st: Store, k: Hash, v: Bytes): (r: Store)
    ensures Get(r, k) == Some(v)
    ensures forall k' :: k' != k ==> Get(r, k') == Get(st, k')
    ensures Keys(r) == if k in Keys(st) then Keys(st) else Keys(st) + [k]
  {
    if k in Keys(st) then
      var r := st[KeyIndex(st, k) := Entry(k, v)];
      PutExisting(st, k, v);
      r
    else
      var r := st + [Entry(k, v)];
      PutNew(st, k, v);
      r
  }

  /** Overwriting a present key in place: the keys stay as they were, only
      this key's value changes. */
  lemma PutExisting(st: Store, k: Hash, v: Bytes)
    requires k in Keys(st)
    ensures var r := st[KeyIndex(st, k) := Entry(k, v)];
      && DistinctKeys(r) && Keys(r) == Keys(st) && Get(r, k) == Some(v)
      && forall k' :: k' != k ==> Get(r, k') == Get(st, k')
  {
    var i := KeyIndex(st, k);
    var r := st[i := Entry(k, v)];
    assert Keys(r) == Keys(st);
    assert DistinctKeys(r);
    GetAt(r, i);
    forall k' | k' != k ensures Get(r, k') == Get(st, k') {
      if k' in Keys(st) {
        var j := KeyIndex(st, k');
        GetAt(r, j);
        GetAt(st, j);
      }
    }
  }

  /** Adding an absent key at the end: the other lookups are unchanged. */
  lemma PutNew(st: Store, k: Hash, v: Bytes)
    requires k !in Keys(st)
    ensures var r := st + [Entry(k, v)];
      && DistinctKeys(r) && Keys(r) == Keys(st) + [k] && Get(r, k) == Some(v)
      && forall k' :: k' != k ==> Get(r, k') == Get(st, k')
  {
    var r := st + [Entry(k, v)];
    assert Keys(r) == Keys(st) + [k];
    assert DistinctKeys(r);
    GetAppend(st, Entry(k, v), k);
    forall k' | k' != k ensures Get(r, k') == Get(st, k') {
      GetAppend(st, Entry(k, v), k');
    }
  }

  /** `s` without its element at position `i`. */
  function RemoveAt<T>(s: seq<T>, i: nat): seq<T>
    requires i < |s|
  {
    s[..i] + s[i + 1..]
  }

  /** `delete ctx.annByHash[k]`: removes only `k` and keeps the order of
      the other keys; deleting an absent key is not an error. */
  function Delete(st: Store, k: Hash): (r: Store)
    ensures Get(r, k).None?
    ensures forall k' :: k' != k ==> Get(r, k') == Get(st, k')
    ensures k !in Keys(st) ==> r == st
    ensures forall k' :: k' in Keys(r) <==> k' in Keys(st) && k' != k
    ensures k in Keys(st) ==>
      Keys(r) == RemoveAt(Keys(st), KeyIndex(st, k))
  {
    if st == [] then []
    else if st[0].key == k then
      DeleteHead(st, k);
      st[1..]
    else
      DistinctTail(st);
      var tail := Delete(st[1..], k);
      DeleteCons(st, k, tail);
      [st[0]] + tail
  }

  /** Dropping the head of a store leaves a store. */
  lemma DistinctTail(st: Store)
    requires st != []
    ensures DistinctKeys(st[1..])
  {
    var rest := st[1..];
    forall i, j | 0 <= i < j < |rest| ensures rest[i].key != rest[j].key {
      assert rest[i] == st[i + 1] && rest[j] == st[j + 1];
    }
  }

  /** The contract of `Delete`, for stating its proof steps. */
  ghost predicate Deleted(st: seq<Entry>, k: Hash, r: seq<Entry>) {
    && Get(r, k).None?
    && (forall k' :: k' != k ==> Get(r, k') == Get(st, k'))
    && (k !in Keys(st) ==> r == st)
    && (forall k' :: k' in Keys(r) <==> k' in Keys(st) && k' != k)
    && (k in Keys(st) ==> Keys(r) == RemoveAt(Keys(st), KeyIndex(st, k)))
  }

  /** The head of a store without duplicate keys is its only entry for its
      key, so dropping the head deletes that key. */
  lemma DeleteHead(st: Store, k: Hash)
    requires st != [] && st[0].key == k
    ensures DistinctKeys(st[1..])
    ensures Deleted(st, k, st[1..])
  {
    var rest := st[1..];
    assert Keys(st) == [k] + Keys(rest);
    assert k !in Keys(rest) by {
      forall i | 0 <= i < |rest| ensures Keys(rest)[i] != k {
        assert rest[i] == st[i + 1];
      }
    }
    assert KeyIndex(st, k) == 0 && Keys(st)[1..] == Keys(rest);
  }

  /** Keeping a head whose key differs, in front of the deleted tail,
      deletes from the whole store. */
  lemma DeleteCons(st: Store, k: Hash, tail: Store)
    requires st != [] && st[0].key != k
    requires Deleted(st[1..], k, tail)
    ensures DistinctKeys([st[0]] + tail)
    ensures Deleted(st, k, [st[0]] + tail)
  {
    var rest := st[1..];
    var r := [st[0]] + tail;
    HeadNotInTail(st);
    assert st[0].key !in Keys(tail);
    ConsDistinct(st[0], tail);
    assert Keys(st) == [st[0].key] + Keys(rest);
    assert Keys(r) == [st[0].key] + Keys(tail);
    assert r[0] == st[0] && r[1..] == tail;
    assert Get(r, k) == Get(tail, k);
    forall k' | k' != k ensures Get(r, k') == Get(st, k') {
      if k' != st[0].key {
        assert Get(r, k') == Get(tail, k') && Get(st, k') == Get(rest, k');
      }
    }
    if k !in Keys(st) {
      assert tail == rest;
      assert r == st;
    }
    if k in Keys(rest) {
      SpliceCons(st, k, Keys(tail));
    }
  }

  /** A store's first key does not occur again in the rest of it. */
  lemma HeadNotInTail(st: Store)
    requires st != []
    ensures st[0].key !in Keys(st[1..])
  {
    var rest := st[1..];
    forall i | 0 <= i < |rest| ensures Keys(rest)[i] != st[0].key {
      assert rest[i] == st[i + 1];
    }
  }

  /** An entry whose key is not in a store can go in front of it. */
  lemma ConsDistinct(e: Entry, tail: Store)
    requires e.key !in Keys(tail)
    ensures DistinctKeys([e] + tail)
  {
    var r := [e] + tail;
    forall i, j | 0 <= i < j < |r| ensures r[i].key != r[j].key {
      if i == 0 {
        assert r[j].key == Keys(tail)[j - 1];
      } else {
        assert r[i] == tail[i - 1] && r[j] == tail[j - 1];
      }
    }
  }

  /** Splicing the key out of a store whose head holds another key splices
      it out of the tail. */
  lemma SpliceCons(es: seq<Entry>, k: Hash, tailKeys: seq<Hash>)
    requires es != [] && es[0].key != k && k in Keys(es[1..])
    requires tailKeys == RemoveAt(Keys(es[1..]), KeyIndex(es[1..], k))
    ensures k in Keys(es)
    ensures [es[0].key] + tailKeys == RemoveAt(Keys(es), KeyIndex(es, k))
  {
    var ks := Keys(es[1..]);
    var j := KeyIndex(es[1..], k);
    assert Keys(es) == [es[0].key] + ks;
    assert KeyIndex(es, k) == j + 1;
    SpliceShift(es[0].key, ks, j);
  }

  /** Removing position `j + 1` of `[a] + ks` removes position `j` of `ks`. */
  lemma SpliceShift(a: Hash, ks: seq<Hash>, j: nat)
    requires j < |ks|
    ensures RemoveAt([a] + ks, j + 1) == [a] + RemoveAt(ks, j)
  {
    assert ([a] + ks)[..j + 1] == [a] + ks[..j];
    assert ([a] + ks)[j + 2..] == ks[j + 1..];
  }
}

=== FILE: wire.dfy ===
/** The message boundary. Inbound frames arrive already decoded by msgpack5
    into a JS array of fields; outbound messages are the arrays the relay
    passes to `sendPeerMsg`. Hash fields travel as raw binary and are hex
    encoded on receipt. */
module Wire {
  import opened Wrappers
  import opened Hex
  import opened Store

  /** One decoded msgpack value, as JS sees it. */
  datatype Field =
    | Nil
    | Bool(b: bool)
    | Num(n: int)
    | Str(s: string)
    | Bin(data: Bytes)
    | Arr(items: seq<Field>)
    | Obj

  /** A frame from a socket: either msgpack could not decode it into an
      array, or it is the array of its fields. */
  datatype Inbound = Undecodable | Decoded(fields: seq<Field>)

  /** The messages the relay sends. HELLO, OLLEH and INV always carry
      sequence 0, and INV carries a further constant 0 before its list. */
  datatype Msg =
    | Hello(version: int)
    | Olleh(version: int)
    | Ping(sequence: int)
    | Ack(sequence: int)
    | GetData(sequence: int, hash: Hash)
    | Data(sequence: int, payload: Option<Bytes>)
    | Inv(hashes: seq<Hash>)

  /** `msg[i]`; None is `undefined`. */
  function At(fs: seq<Field>, i: nat): Option<Field> {
    if i < |fs| then Some(fs[i]) else None
  }

  /** JS truthiness of a field; a Buffer, array or object is always truthy,
      even when empty. */
  predicate Truthy(v: Option<Field>) {
    match v
    case None => false
    case Some(Nil) => false
    case Some(Bool(b)) => b
    case Some(Num(n)) => n != 0
    case Some(Str(s)) => s != ""
    case Some(Bin(_)) => true
    case Some(Arr(_)) => true
    case Some(Obj) => true
  }

  /** `x.toString('hex')` on a present field; None means the call throws
      (`null` has no methods, and a number rejects 'hex' as a radix).
      Strings and booleans ignore the argument. */
  function HexString(x: Field): (r: Option<Hash>)
    ensures r.None? <==> x.Nil? || x.Num? || x.Arr?
    ensures x.Bin? ==> r.Some? && IsLowerHex(r.value) && FromHex(r.value) == x.data
    ensures x.Str? ==> r == Some(x.s)
  {
    match x
    case Nil => None
    case Num(_) => None
    case Bool(b) => Some(if b then "true" else "false")
    case Str(s) => Some(s)
    case Bin(d) => FromHexToHex(d); Some(ToHex(d))
    case Arr(_) => None
    case Obj => Some("[object Object]")
  }

  /** `items.map((x) => x.toString('hex'))` over an array: it throws as soon
      as one item does, and otherwise converts every item in order. */
  function HexStrings(items: seq<Field>): (r: Option<seq<Hash>>)
    ensures r.Some? <==> forall i :: 0 <= i < |items| ==> HexString(items[i]).Some?
    ensures r.Some? ==> |r.value| == |items|
    ensures r.Some? ==> forall i :: 0 <= i < |items| ==> r.value[i] == HexString(items[i]).value
  {
    if items == [] then Some([])
    else match (HexString(items[0]), HexStrings(items[1..]))
      case (Some(h), Some(hs)) => Some([h] + hs)
      case _ => None
  }

  /** `msg[3].map((x) => x.toString('hex'))`. Only an array or a Buffer has a
      `map`; mapping a Buffer hands the callback numbers, which throw, so
      only an empty Buffer gets through. */
  function HashList(v: Option<Field>): Option<seq<Hash>> {
    match v
    case Some(Arr(items)) => HexStrings(items)
    case Some(Bin(d)) => if d == [] then Some([]) else None
    case _ => None
  }

  /** The array a message is sent as, as the receiving side decodes it. */
  function Fields(m: Msg): seq<Field> {
    match m
    case Hello(v) => [Num(0), Str("HELLO"), Num(v)]
    case Olleh(v) => [Num(0), Str("OLLEH"), Num(v)]
    case Ping(s) => [Num(s), Str("PING")]
    case Ack(s) => [Num(s), Str("ACK")]
    case GetData(s, h) => [Num(s), Str("GET_DATA"), Bin(FromHex(h))]
    case Data(s, p) => [Num(s), Str("DATA"), if p.Some? then Bin(p.value) else Nil]
    case Inv(hs) => [Num(0), Str("INV"), Num(0), Arr(seq(|hs|, i requires 0 <= i < |hs| => Bin(FromHex(hs[i]))))]
  }

  /** The envelope check: a number, then a string. */
  predicate WellFormed(m: Inbound) {
    m.Decoded? && |m.fields| >= 2 && m.fields[0].Num? && m.fields[1].Str?
  }

  /** Everything the relay sends passes the receiver's envelope check. */
  lemma SentFramesWellFormed(m: Msg)
    ensures WellFormed(Decoded(Fields(m)))
  {
  }

  /** A hash list sent in an INV is read back as the same list of keys when
      every key is well-formed hex. */
  lemma {:induction false} InvRoundTrip(hs: seq<Hash>)
    requires forall i :: 0 <= i < |hs| ==> IsLowerHex(hs[i])
    ensures HashList(At(Fields(Inv(hs)), 3)) == Some(hs)
  {
    var items := Fields(Inv(hs))[3].items;
    forall i | 0 <= i < |hs| ensures HexString(items[i]) == Some(hs[i]) {
      ToHexFromHex(hs[i]);
    }
    var r := HexStrings(items);
    assert r.Some?;
    assert r.value == hs;
  }
}

=== FILE: wrappers.dfy ===
/** The optional value used wherever the relay can read "nothing": an absent
    array index, a missing store entry, a conversion that throws. */
module Wrappers {

  datatype Option<+T> = None | Some(value: T)
}
